=== FILE: README.md ===
# utest, modelled in Dafny

utest is a small C++ unit-test harness.

- **Declaring tests.** A test file declares *fixtures* with `test_define`. Inside a fixture's body, `test_section` blocks open named sections, and `test_eq` / `test_ne` / `test_gt` / ... record one *case* each.
- **Comparison.** Each assertion compares its operands with `compare`. Scalars are compared directly. Ranges are compared element by element, recursing into nested ranges.
- **Failure messages.** These render operands with the range `to_string`.
- **Registration.** Each fixture registers itself when it is constructed.
- **Running.** `suite::run` scans the command line for a verbosity (and, in the newer generation, a source root), then calls `suite::runall`. In utest.cc `runall` runs every registered fixture; in utest.h it runs a lone fixture, but with two or more it stops before the last one. It prints what the verbosity asks for. In utest.cc it returns the number of failed cases over all fixtures; in utest.h it returns the `errors` counter of the first fixture, which every body writes to.

The repository holds two generations of the harness, and the model keeps them apart:

- **utest.h** (module `HeaderSuite`):
  - three verbosity levels;
  - fixtures chained in a singly linked list through `begin`, `end` and `next_test`;
  - a runner that walks the chain while the fixture is not `end`.
- **utest.cc** (modules `Fixtures` and `Suite`):
  - four verbosity levels (with `passed`);
  - a vector of fixtures;
  - a `printed_something` latch that chooses among four closing lines;
  - a runner that makes each fixture current before running it;
  - a command line with `-v` and `-s`.

Shared modules:

| module | contents |
|---|---|
| `Comparator` | both `compare` overloads |
| `Stringify` | the range `to_string` |
| `Sections` | the 32-slot section stack with `push_section`, `pop_section` and `print_section`. The push, pop and stale-header logic is the same in both generations. The rendering differs: utest.h joins the names with the threshold `to_string` and prints one line, while utest.cc uses `join` and prints a second, rule line, which the model does not represent |
| `TestBody` | a fixture body, reduced to a tree of assertion outcomes and sections |
| `Output` | printed lines, reduced to abstract events |

How the model represents the C++:

- **Fixture bodies.** A body is a tree `Check(success) | Section(name, body)`. A section is a scope guard, so sections are always balanced.
- **Undefined behaviour in `compare`.** Dereferencing the begin iterator of an empty range is undefined in the C++. The model returns an explicit `Undefined` outcome instead of adding a precondition, because a nested empty range that the walk never reaches is harmless.
- **Output.** Console output is a sequence of `Event`s. Text, colours and `printf`/`fmt` formatting are not modelled.

Behaviour of the code worth knowing:

- The rendered section path starts with the root "main".
- In utest.cc every fixture prints a closing line even at `quiet` verbosity.
- Comparing two empty ranges is undefined, not a success.
- `test_ne` on containers passes only when every aligned pair differs.
- In utest.h, `add_result` refreshes the section header whenever the verbosity is not `quiet`, even for a case it does not print.
- utest.cc renders section paths with `join`, which is not part of this model. It is taken to be the corrected join: separators only between elements.

## Model

| member | source | states |
|---|---|---|
| Comparator.Compare | utest.h:70-97 | a successful comparison means both operands have the same shape and length and the predicate holds on every aligned pair of scalars; a pair of ranges with an empty side is undefined, since `*begin` is read before any end check |
| Comparator.CompareMeansAgree | utest.h:76-97 | on operands whose reachable ranges are all non-empty, the walk is defined and returns exactly the reference relation: same lengths and pointwise agreement, recursively |
| Comparator.DefinedMeansAgree | utest.h:70-97 | whenever the walk returns a verdict at all, including walks that stop at a rejected pair before an empty range, the verdict is the reference relation |
| Comparator.StopsBeforeEmptyRange | utest.h:76-97 | `{1, {}}` against `{2, {}}` is not well-shaped, yet `==` is decided false at the first pair |
| Comparator.LengthMismatchFails | utest.h:89-92 | ranges of different lengths compare false under every predicate, even when one is a prefix of the other |
| Comparator.FlatCompare | utest.h:76-97 | on non-empty integer ranges the result is true iff the lengths agree and the predicate holds at every index, so `test_ne` passes only if every aligned pair differs |
| Comparator.CompareEqReflexive | utest.h:76-97 | an operand compared with itself for equality succeeds whenever the walk is defined |
| Comparator.CompareRanges | utest.h:76-97 | the do-while loop of the range overload computes the same outcome as the recursive definition, and success implies equal lengths |
| Comparator.ExampleContainers | example.cc:31-33 | {1,2,3} against {1,2} or {1,2,1928} fails, against {1,2,3} passes; `ne` against {1,9,3} fails because the middle pair is rejected |
| Stringify.IntToString | utest.h:50 | the decimal rendering is non-empty and starts with '-' exactly for negative numbers |
| Stringify.JoinAsWritten | utest.h:53-66 | the empty range renders as ""; the trailing separator is removed exactly when the accumulated text exceeds 3 characters (bytes, for the ASCII text the harness joins), otherwise the text ends with it |
| Stringify.Join | utest.h:53-66 | the corrected join equals the parts interleaved with the separator, with none at either end |
| Stringify.SingleElementThreshold | utest.h:63-64 | for one element the as-written join is correct iff element plus separator exceed 3 characters (bytes, for ASCII text) or the separator is empty |
| Stringify.ManyElementsJoinCorrectly | utest.h:54-65 | with ", " and at least two non-empty elements the 3-character threshold never matters |
| Stringify.SingleDigitKeepsSeparator | utest.h:63-64 | `{7}` renders as "7, " as written and as "7" when corrected |
| Stringify.ToString | utest.h:50-66 | the corrected renderer: a scalar renders non-empty, and a range renders as its rendered elements interleaved with ", ", with no separator at either end |
| Stringify.ToStringAsWritten | utest.h:50-66 | the renderer as written, recursing through the threshold join: scalars render as with the corrected renderer and the empty range as "" |
| Stringify.IntRangeRendering | utest.h:50-66 | a range of two or more integers renders the same with either join and with either renderer |
| Stringify.SingletonRangeRendering | utest.h:50-66 | the range `{7}` renders as "7, " as written and as "7" corrected |
| Sections.Initial | utest.h:130-135 | a fresh stack has only the root "main" open and a stale header |
| Sections.Push | utest.h:181 | `current` rises by one, the name is stored at the new top, every other slot is kept, and the header becomes stale |
| Sections.Pop | utest.h:182 | `current` drops by one, no name changes, and the header becomes stale |
| Sections.Path | utest.h:178 | the rendered path always starts with "main" |
| Sections.PathOfPush | utest.h:178-181 | entering a section appends "." and its name to the rendered path |
| Sections.PushThenPop | utest.h:181-182 | a push followed by a pop restores `current`, the open sections and the path, and leaves the header stale |
| Sections.PrintSection | utest.h:172-180 | prints one section header exactly when the header is stale and then marks it fresh; the stack is otherwise unchanged |
| Sections.PrintSectionTwice | utest.h:172-177 | a second `print_section` right after the first prints nothing |
| Sections.PathAsWritten | utest.h:178 | the threshold join renders every section path the same as the corrected join, because "main" is already 4 characters |
| Sections.NestedPaths | utest.cc:59-73 | entering "a" then "b" renders "main.a.b"; leaving "b" and entering "c" renders "main.a.c"; leaving both renders "main" |
| TestBody.FailuresAtMostCases | utest.cc:96-103 | a body never records more failed cases than cases |
| Fixtures.Setup | utest.cc:18-23 | the banner is printed exactly when the verbosity is above quiet |
| Fixtures.Enter | utest.cc:59 | a section's guard opens one more section, so the open sections are the old ones followed by the name, the path gains "." and the name, the header is stale, and the counters are untouched |
| Fixtures.Leave | utest.cc:60 | leaving drops the innermost open section, marks the header stale, and leaves the counters untouched |
| Fixtures.AddCase | utest.cc:61 | `cases` grows by one and nothing else changes |
| Fixtures.ReportCase | utest.cc:105-124 | a reported case prints at least one line, which is blank iff the fixture had printed nothing before or a failure follows a fresh header; the section header appears iff it was stale; the case gets exactly one header line, carrying its own index and Success/Failure outcome, and a detail iff it is detailed; the only section header is the current path, and every line is a blank, section, case header or detail line |
| Fixtures.AddResult | utest.cc:96-127 | `errors` grows iff the case failed and `caseindex` always grows; output appears iff verbosity > quiet and (failure or verbosity >= passed); detail iff additionally (failure or verbosity >= everything); the one header line carries the case's index and outcome; `printed_something` latches, and a blank line opens the fixture's first output; a section header, for the current path, appears iff the case is shown and the header was stale; nothing but blank, section, case header and detail lines is printed |
| Fixtures.RunStmts | utest.cc:59-127 | running a body adds one case per assertion and one error per failed assertion, returns the section stack to where it was, and prints, in case order, one header line with index and outcome for each shown case and a detail for each detailed case |
| Fixtures.BodyLines | utest.cc:59-127 | apart from those lines, running a body prints only blank lines and section headers, and every section header names the fixture's current section or one nested inside it |
| Fixtures.StmtLines | utest.cc:59-127 | the same for a single assertion or section |
| Fixtures.Teardown | utest.cc:24-57 | the closing line is one of four, chosen by whether anything was printed and whether any case failed, and always reports `cases - errors` of `cases` |
| Fixtures.RunFixture | utest.cc:155-160 | a fixture run from its fresh state ends with its cases and failures equal to its body's, `0 <= errors <= cases`, prints a header line per shown case with its outcome and a detail per detailed case, in case order; its output opens with its banner unless quiet and ends with its closing line |
| Fixtures.FixtureLayout | utest.cc:155-160 | between the banner (when not quiet) and the closing line a fixture prints only blank lines, section headers, case headers and details, and every section header names "main" or a section inside it |
| Fixtures.ShownCasesMeaning | utest.cc:105-118 | a header line (i, outcome) is printed iff case i exists, the outcome is case i's, and the verbosity shows it; case i gets a detail iff it exists and the verbosity details its outcome |
| Fixtures.CasesPrintedOnce | utest.cc:96-127 | header lines and details come in strictly increasing case order, so no case is reported twice |
| Fixtures.PrintedCasesMonotone | utest.cc:105-123 | raising the verbosity never hides a case or a detail that was printed |
| Fixtures.FailuresVerbosityReportsFailures | utest.cc:105-123 | at the default verbosity a header line (i, outcome) appears iff case i failed and the outcome is Failure; each case at most once, in order; the details are exactly the reported cases, in the same order |
| Fixtures.QuietFixturePrintsOnlyClosing | utest.cc:18-57 | at quiet verbosity a fixture prints only its closing line, in the inline form |
| Suite.Register | utest.cc:13-16 | registration appends the fixture and keeps every earlier one in place |
| Suite.RegisterAll | utest.cc:13-16 | registering the declarations one by one leaves the earlier registry followed by the declarations, in declaration order |
| Suite.RunFixtures | utest.cc:155-166 | the loop's counters are the number of fixtures, the number whose body has no failure, and the sums of their cases and failures; the final states and the output are those of running each fixture in declaration order, one fixture's lines after another's; at quiet verbosity one closing line per fixture is printed |
| Suite.RunAll | utest.cc:148-172 | `runall` accounts for every fixture as the loop does, prints every fixture's output in order followed by the aggregate line, returns the total number of failed cases, which is zero iff every fixture's body passed; passed <= tests and errors <= cases; the last line is the aggregate summary; at quiet verbosity only one closing line per fixture comes before it |
| Suite.AllCleanIffNoFailures | utest.cc:164-171 | every fixture passed exactly when no case failed anywhere |
| Suite.TotalsBounded | utest.cc:161-171 | the totals never claim more failures than cases |
| Suite.QuietScenario | utest.cc:24-57 | a fixture with one failing and one passing case prints only `-> failed [1/2]` at quiet verbosity, and a suite of just that fixture counts 2 cases, 1 failure and no passed fixture |
| Suite.ApplyWord | utest.cc:181-184 | exactly the four words quiet, failures, passed and everything select their level; any other value leaves the verbosity as it was |
| Suite.Step | utest.cc:178-191 | one pass of the loop body never moves the index backwards or past the arguments |
| Suite.ScanMeaning | utest.cc:176-192 | scanning from any index changes nothing without flags; a changed verbosity was named by a word right after `-v`/`--verbosity`, and a changed source root is the argument right after `-s`/`--source_root` |
| Suite.ParseArgsMeaning | utest.cc:176-192 | the same for the whole command line, program name included |
| Suite.ScanSplit | utest.cc:176-192 | scanning a prefix that does not end in a flag, then the rest, is scanning the whole |
| Suite.LastVerbosityWins | utest.cc:178-185 | a final `-v word` sets the verbosity if the word is recognised, leaves it otherwise, and keeps the source root |
| Suite.LastRootWins | utest.cc:187-191 | a final `-s path` sets the source root and keeps the verbosity |
| Suite.TrailingFlagIgnored | utest.cc:178-191 | a flag with no argument after it changes nothing |
| Suite.VerbosityThenRoot | utest.cc:176-191 | `-v -s X` sets the source root to X and keeps the verbosity; a flag in the program-name slot is scanned too; the last recognised verbosity wins |
| Suite.Run | utest.cc:174-194 | `run` returns the total number of failed cases of the registered fixtures and completes `runall` at the verbosity the arguments select: every fixture's output in order, then the aggregate line |
| HeaderSuite.Register | utest.h:141-152 | the first fixture becomes `begin`, `end` and `current`; each later one is linked after `end` and becomes `end`; `current` never moves after the first |
| HeaderSuite.RegisterAll | utest.h:141-152 | registration keeps the chain well-formed, adds one fixture per declaration at its position, and leaves every fixture unrun |
| HeaderSuite.CurrentStaysFirst | utest.h:143-151 | after registering any number of fixtures, `current` is the first and `end` the last |
| HeaderSuite.RegisteredIsReady | utest.h:141-152 | registering fixtures whose sections fit gives a chain the runner accepts, with zero counters and the declared bodies |
| HeaderSuite.AddCase | utest.h:183 | `cases` grows by one and nothing else changes |
| HeaderSuite.AddResult | utest.h:184-201 | `errors` grows iff the case failed and `caseindex` always grows; the section header is refreshed whenever not quiet; a failure line appears unless quiet and a success line only at everything; at most one case line, carrying the case's index and outcome; at most one section header, for the current path, printed first and exactly when not quiet and stale; nothing else is printed |
| HeaderSuite.PassingCasePrintsBareHeader | utest.h:186-192 | at the default verbosity a passing case in a new section prints the section header alone |
| HeaderSuite.RunStmts | utest.h:181-211 | running a body against a fixture adds one case per assertion and one error per failed assertion and returns its section stack to the same depth |
| HeaderSuite.RunBody | utest.h:287-290 | a body writes to `*suite::current`, whatever fixture the runner is visiting |
| HeaderSuite.Loop | utest.h:239-247 | the loop visits every fixture from the start except the last, and the current fixture collects the failures of every body that ran |
| HeaderSuite.LoopCounts | utest.h:239-247 | with two or more fixtures the loop adds up the first fixture's own cases and failures and nothing from the others, because the others' counters are never written |
| HeaderSuite.RunAll | utest.h:220-257 | one fixture is run alone; with n >= 2 only n - 1 run; the returned errors and the cases are those of the first body; only the first fixture is written |
| HeaderSuite.SecondFixtureIsSkipped | utest.h:229-248 | with a passing fixture followed by a failing one, the runner reports 1 test, 1 case and 0 errors |
| HeaderSuite.MiddleFailureIsLost | utest.h:239-247 | with three fixtures whose middle body fails, the failure lands on the first fixture after its counters were read, so 0 errors are reported |
| HeaderSuite.ApplyWord | utest.h:266-268 | only quiet, failures and everything change the verbosity in this generation |
| HeaderSuite.ScanSplit | utest.h:261-270 | scanning a prefix that does not end in a flag, then the rest, is scanning the whole |
| HeaderSuite.LastVerbosityWins | utest.h:261-270 | a final `-v word` sets the verbosity if the word is one of the three; "passed" leaves it unchanged |
| HeaderSuite.ScanMeaning | utest.h:261-270 | scanning from any index changes nothing without verbosity flags, and a changed verbosity was named by one of the three words right after a verbosity flag |
| HeaderSuite.ParseArgsMeaning | utest.h:261-270 | the same for the whole command line, starting from the default `failures` |
| HeaderSuite.Run | utest.h:259-272 | `run` returns the same counters as `runall` without arguments, whatever the arguments, and so the failures of the first body only |

## Findings

| source | as written | input that shows it | evidently intended | confidence | as-written member | corrected member |
|---|---|---|---|---|---|---|
| utest.h:63-64 | the trailing separator is cut only when the accumulated text is longer than 3 characters | a one-element range `{7}` with ", " renders as "7, " (Stringify.SingleDigitKeepsSeparator) | remove the trailing separator whenever the range is non-empty | not executed; high | Stringify.JoinAsWritten | Stringify.Join |
| utest.h:239 | the loop stops when it reaches `end`, so with two or more fixtures the last registered one never runs | a passing fixture then a failing one: 1 test, 0 errors reported (HeaderSuite.SecondFixtureIsSkipped) | run every fixture, as the utest.cc runner does | not executed; high | HeaderSuite.RunAll | Suite.RunAll |
| utest.h:143-151 | `suite::current` is set only by the first constructor, so every body writes to the first fixture | three fixtures with a failing middle body: 0 errors reported (HeaderSuite.MiddleFailureIsLost) | make each fixture current before running it, as the utest.cc runner does | not executed; high | HeaderSuite.RunAll | Suite.RunAll |

## Left out

- Text, colours and the `printf` / `fmt::print` calls themselves. Every printed line is an abstract `Event`.
- HeaderSuite.RunStmts: the lines utest.h prints are not collected. `HeaderSuite.AddResult` states them for one case, but `HeaderSuite.RunStmt` and `HeaderSuite.RunStmts` drop them; the `setup`/`teardown` lines and the aggregate lines of utest.h are not modelled either, so `HeaderSuite.RunAll` and `HeaderSuite.Run` return only counters.
- The rule line utest.cc prints under each section header (utest.cc:72) is not an event of its own; the `SectionHeader` event stands for both lines.
- Stringify.JoinAsWritten: string lengths count characters, where `std::string::size()` counts bytes. The two agree on ASCII text, which is all the harness joins (decimal renderings, and section paths starting with "main"); a separator with non-ASCII characters could make the C++ cut where the model does not.
- Stringify.SingleElementThreshold: lengths count characters, not bytes, so the iff matches the C++ only for ASCII element and separator text.
- `std::to_string` on scalars is modelled as plain decimal rendering of an unbounded integer. Floating-point and other operand types are not modelled.
- `suite::ez_file` and `std::filesystem::relative`: they depend on the file system. The source root is parsed but has no effect on the model.
- Macros, `__FILE__`/`__LINE__` capture, C++ concepts and overload dispatch, and `main`. Dispatch is the shape of `Comparator.Value`. Registration is an explicit append in declaration order.
- The user code inside fixture bodies. A body is reduced to its assertion outcomes and section tree.
- Integer overflow of the C++ `int` counters: the model's counters are unbounded.
- Section nesting deeper than 31 levels. The source writes past the 32-slot array without checking, so every runner requires bodies whose nesting fits.
- Comparator.Compare: the undefined behaviour of comparing an empty range, or a scalar with a range, is collapsed into one `Undefined` outcome. Nothing is said about what the C++ would actually do.
- HeaderSuite.RunAll: requires at least one registered fixture, because with none the source dereferences a null `begin`. It also requires fresh counters, as registration leaves them.

=== FILE: body.dfy ===
/** The body of a test fixture, as the harness sees it: user code is reduced to
    the assertions it performs and the sections it opens. A section is a scope
    guard (its constructor pushes, its destructor pops), so sections are always
    balanced; a tree of statements captures that structurally. */
module TestBody {

  datatype Stmt =
    | Check(success: bool)                  // one test_eq / test_ne / ... assertion
    | Section(name: string, body: seq<Stmt>) // a test_section("name") { ... } block

  /** The outcomes of the assertions of `ss`, in execution order. */
  function Outcomes(ss: seq<Stmt>): seq<bool>
  {
    if |ss| == 0 then []
    else
      match ss[0]
      case Check(ok) => [ok] + Outcomes(ss[1..])
      case Section(_, body) => Outcomes(body) + Outcomes(ss[1..])
  }

  /** Number of `false` entries. */
  function CountFalse(outs: seq<bool>): nat
  {
    if |outs| == 0 then 0 else (if outs[0] then 0 else 1) + CountFalse(outs[1..])
  }

  /** Number of cases, and of failed cases, that running `ss` records. */
  function CaseCount(ss: seq<Stmt>): nat { |Outcomes(ss)| }
  function FailureCount(ss: seq<Stmt>): nat { CountFalse(Outcomes(ss)) }

  /** Deepest section nesting reached inside `ss`. */
  function Depth(ss: seq<Stmt>): nat
  {
    if |ss| == 0 then 0
    else
      var rest := Depth(ss[1..]);
      match ss[0]
      case Check(_) => rest
      case Section(_, body) => var d := 1 + Depth(body); if d < rest then rest else d
  }

  lemma {:induction false} CountFalseAppend(a: seq<bool>, b: seq<bool>)
    ensures CountFalse(a + b) == CountFalse(a) + CountFalse(b)
    decreases |a|
  {
    if |a| == 0 {
      assert a + b == b;
    } else {
      assert (a + b)[1..] == a[1..] + b;
      CountFalseAppend(a[1..], b);
    }
  }

  lemma {:induction false} CountFalseBound(outs: seq<bool>)
    ensures CountFalse(outs) <= |outs|
    ensures CountFalse(outs) == 0 <==> forall i :: 0 <= i < |outs| ==> outs[i]
    decreases |outs|
  {
    if |outs| > 0 {
      CountFalseBound(outs[1..]);
      assert forall i :: 1 <= i < |outs| ==> outs[i] == outs[1..][i - 1];
    }
  }

  /** A fixture never records more failures than cases. */
  lemma FailuresAtMostCases(ss: seq<Stmt>)
    ensures FailureCount(ss) <= CaseCount(ss)
  {
    CountFalseBound(Outcomes(ss));
  }

  /** The outcomes and nesting of a single statement. */
  lemma SingleStmt(s: Stmt)
    ensures s.Check? ==> Outcomes([s]) == [s.success]
    ensures s.Check? ==> CaseCount([s]) == 1 && FailureCount([s]) == (if s.success then 0 else 1)
    ensures s.Check? ==> Depth([s]) == 0
    ensures s.Section? ==> Outcomes([s]) == Outcomes(s.body)
    ensures s.Section? ==> Depth([s]) == 1 + Depth(s.body)
  {
    assert [s][0] == s && [s][1..] == [];
    match s
    case Check(ok) =>
      assert Outcomes([s]) == [ok] + Outcomes([]);
      assert [ok][1..] == [];
      assert CountFalse([ok]) == (if ok then 0 else 1) + CountFalse([]);
    case Section(_, body) =>
      assert Outcomes([s]) == Outcomes(body) + Outcomes([]);
      assert Outcomes(body) + [] == Outcomes(body);
      assert Depth([s]) == 1 + Depth(body);
  }

  /** A statement list splits into its head statement and the rest. */
  lemma {:induction false} SplitFirst(ss: seq<Stmt>)
    requires |ss| > 0
    ensures Outcomes(ss) == Outcomes([ss[0]]) + Outcomes(ss[1..])
    ensures CaseCount(ss) == CaseCount([ss[0]]) + CaseCount(ss[1..])
    ensures FailureCount(ss) == FailureCount([ss[0]]) + FailureCount(ss[1..])
    ensures Depth([ss[0]]) <= Depth(ss) && Depth(ss[1..]) <= Depth(ss)
  {
    SingleStmt(ss[0]);
    CountFalseAppend(Outcomes([ss[0]]), Outcomes(ss[1..]));
  }
}

=== FILE: comparator.dfy ===
/** Element-wise comparison of test operands (utest.h, "COMPARISON"): a scalar
    overload that applies the relational predicate directly, and a range overload
    that walks both ranges in lock-step, recursing into nested ranges. */
module Comparator {

  /** A test operand: an integer, or a range of operands (std::vector, std::array, ...). */
  datatype Value = Scalar(n: int) | List(items: seq<Value>)

  /** The predicate each assertion macro passes in: ==, !=, >, >=, <, <=. */
  datatype Mode = Eq | Ne | Gt | Ge | Lt | Le

  /** What a comparison yields. `Undefined` stands for the source's undefined
      behaviour: dereferencing the begin iterator of an empty range, or pairing a
      scalar with a range (which the C++ overloads never compile). */
  datatype Outcome = Decided(holds: bool) | Undefined

  predicate Holds(m: Mode, x: int, y: int)
  {
    match m
    case Eq => x == y
    case Ne => x != y
    case Gt => x > y
    case Ge => x >= y
    case Lt => x < y
    case Le => x <= y
  }

  /** Reference meaning of a comparison: same shape, same lengths, and the
      predicate holds of every aligned pair of scalars. */
  ghost predicate Agree(m: Mode, a: Value, b: Value)
  {
    match a
    case Scalar(x) => b.Scalar? && Holds(m, x, b.n)
    case List(xs) =>
      b.List? && |xs| == |b.items| &&
      forall i :: 0 <= i < |xs| ==> Agree(m, xs[i], b.items[i])
  }

  /** Operands on which the walk is always defined, however the pairs compare:
      the kinds match, and every pair of ranges the walk could reach is
      non-empty on both sides. */
  ghost predicate WellShaped(a: Value, b: Value)
  {
    match a
    case Scalar(_) => b.Scalar?
    case List(xs) =>
      b.List? && |xs| > 0 && |b.items| > 0 &&
      forall i :: 0 <= i < |xs| && i < |b.items| ==> WellShaped(xs[i], b.items[i])
  }

  /** `compare(left, right, predicate)`, both overloads. */
  function Compare(m: Mode, a: Value, b: Value): (r: Outcome)
    ensures r == Decided(true) ==> Agree(m, a, b)
    ensures a.List? && b.List? && (|a.items| == 0 || |b.items| == 0) ==> r == Undefined
  {
    match a
    case Scalar(x) => if b.Scalar? then Decided(Holds(m, x, b.n)) else Undefined
    case List(xs) => if b.List? then CompareItems(m, xs, b.items) else Undefined
  }

  /** The do-while loop of the range overload, on the remaining suffixes: it
      reads the current pair before looking at the ends, fails on the first
      rejected pair, and fails when exactly one range is exhausted. */
  function CompareItems(m: Mode, xs: seq<Value>, ys: seq<Value>): (r: Outcome)
    ensures r == Decided(true) ==>
      |xs| == |ys| && forall i :: 0 <= i < |xs| ==> Agree(m, xs[i], ys[i])
    ensures |xs| == 0 || |ys| == 0 ==> r == Undefined
  {
    if |xs| == 0 || |ys| == 0 then Undefined
    else
      match Compare(m, xs[0], ys[0])
      case Undefined => Undefined
      case Decided(ok) =>
        if !ok then Decided(false)
        else if (|xs| == 1) != (|ys| == 1) then Decided(false)
        else if |xs| == 1 then Decided(true)
        else
          var rest := CompareItems(m, xs[1..], ys[1..]);
          assert rest == Decided(true) ==> forall i :: 1 <= i < |xs| ==> Agree(m, xs[i], ys[i]) by {
            if rest == Decided(true) {
              forall i | 1 <= i < |xs| ensures Agree(m, xs[i], ys[i]) {
                assert xs[1..][i - 1] == xs[i] && ys[1..][i - 1] == ys[i];
              }
            }
          }
          rest
  }

  /** On well-shaped operands the walk computes exactly the reference meaning. */
  lemma {:induction false} CompareMeansAgree(m: Mode, a: Value, b: Value)
    requires WellShaped(a, b)
    ensures Compare(m, a, b) == Decided(Agree(m, a, b))
    decreases a, 1
  {
    match a
    case Scalar(_) =>
    case List(xs) => ItemsMeanAgree(m, xs, b.items);
  }

  lemma {:induction false} ItemsMeanAgree(m: Mode, xs: seq<Value>, ys: seq<Value>)
    requires |xs| > 0 && |ys| > 0
    requires forall i :: 0 <= i < |xs| && i < |ys| ==> WellShaped(xs[i], ys[i])
    ensures CompareItems(m, xs, ys) ==
      Decided(|xs| == |ys| && forall i :: 0 <= i < |xs| ==> Agree(m, xs[i], ys[i]))
    decreases xs, 0
  {
    CompareMeansAgree(m, xs[0], ys[0]);
    if Agree(m, xs[0], ys[0]) && |xs| > 1 && |ys| > 1 {
      forall i | 0 <= i < |xs[1..]| && i < |ys[1..]|
        ensures WellShaped(xs[1..][i], ys[1..][i])
      {
        assert xs[1..][i] == xs[i + 1] && ys[1..][i] == ys[i + 1];
      }
      ItemsMeanAgree(m, xs[1..], ys[1..]);
      if |xs| == |ys| && forall i :: 0 <= i < |xs[1..]| ==> Agree(m, xs[1..][i], ys[1..][i]) {
        forall i | 0 <= i < |xs| ensures Agree(m, xs[i], ys[i]) {
          if i > 0 {
            assert xs[1..][i - 1] == xs[i] && ys[1..][i - 1] == ys[i];
          }
        }
      }
    }
  }

  /** Wherever the walk is defined at all (it may stop at a rejected pair
      before reaching an empty range or a kind mismatch), its verdict is the
      reference meaning. */
  lemma {:induction false} DefinedMeansAgree(m: Mode, a: Value, b: Value)
    requires Compare(m, a, b).Decided?
    ensures Compare(m, a, b) == Decided(Agree(m, a, b))
    decreases a, 1
  {
    match a
    case Scalar(_) =>
    case List(xs) => DefinedItemsMeanAgree(m, xs, b.items);
  }

  lemma {:induction false} DefinedItemsMeanAgree(m: Mode, xs: seq<Value>, ys: seq<Value>)
    requires CompareItems(m, xs, ys).Decided?
    ensures CompareItems(m, xs, ys) ==
      Decided(|xs| == |ys| && forall i :: 0 <= i < |xs| ==> Agree(m, xs[i], ys[i]))
    decreases xs, 0
  {
    DefinedMeansAgree(m, xs[0], ys[0]);
    if Agree(m, xs[0], ys[0]) && |xs| > 1 && |ys| > 1 {
      DefinedItemsMeanAgree(m, xs[1..], ys[1..]);
      if |xs| == |ys| && forall i :: 0 <= i < |xs[1..]| ==> Agree(m, xs[1..][i], ys[1..][i]) {
        forall i | 0 <= i < |xs| ensures Agree(m, xs[i], ys[i]) {
          if i > 0 {
            assert xs[1..][i - 1] == xs[i] && ys[1..][i - 1] == ys[i];
          }
        }
      }
    }
  }

  /** The nested example of a walk that stops before its undefined part:
      `{1, {}}` against `{2, {}}` is rejected at the first pair. */
  lemma StopsBeforeEmptyRange()
    ensures !WellShaped(List([Scalar(1), List([])]), List([Scalar(2), List([])]))
    ensures Compare(Eq, List([Scalar(1), List([])]), List([Scalar(2), List([])])) == Decided(false)
  {
    var a, b := List([Scalar(1), List([])]), List([Scalar(2), List([])]);
    assert !WellShaped(a.items[1], b.items[1]);
  }

  /** Ranges of different lengths never compare successfully, whatever the
      predicate, even when the shorter one is a prefix of the longer. */
  lemma LengthMismatchFails(m: Mode, xs: seq<Value>, ys: seq<Value>)
    requires WellShaped(List(xs), List(ys))
    requires |xs| != |ys|
    ensures Compare(m, List(xs), List(ys)) == Decided(false)
  {
    CompareMeansAgree(m, List(xs), List(ys));
  }

  /** A range of integers. */
  function Ints(s: seq<int>): (v: Value)
    ensures v.List? && |v.items| == |s|
    ensures forall i :: 0 <= i < |s| ==> v.items[i] == Scalar(s[i])
  {
    List(seq(|s|, i requires 0 <= i < |s| => Scalar(s[i])))
  }

  /** On non-empty ranges of integers the comparison succeeds iff the lengths
      agree and the predicate holds of every aligned pair; in particular
      `test_ne` on two containers passes only when EVERY aligned pair differs. */
  lemma FlatCompare(m: Mode, xs: seq<int>, ys: seq<int>)
    requires |xs| > 0 && |ys| > 0
    ensures Compare(m, Ints(xs), Ints(ys)) ==
      Decided(|xs| == |ys| && forall i :: 0 <= i < |xs| ==> Holds(m, xs[i], ys[i]))
  {
    var a, b := Ints(xs), Ints(ys);
    CompareMeansAgree(m, a, b);
    assert Agree(m, a, b) <==> |xs| == |ys| && forall i :: 0 <= i < |xs| ==> Holds(m, xs[i], ys[i]) by {
      if |xs| == |ys| {
        assert forall i :: 0 <= i < |xs| ==> (Agree(m, a.items[i], b.items[i]) <==> Holds(m, xs[i], ys[i]));
      }
    }
  }

  lemma {:induction false} AgreeReflexive(m: Mode, a: Value)
    requires m in {Eq, Ge, Le}
    ensures Agree(m, a, a)
  {
    match a
    case Scalar(_) =>
    case List(xs) =>
      forall i | 0 <= i < |xs| ensures Agree(m, xs[i], xs[i]) {
        AgreeReflexive(m, xs[i]);
      }
  }

  /** Equality is reflexive on every operand the walk is defined on. */
  lemma CompareEqReflexive(a: Value)
    requires Compare(Eq, a, a).Decided?
    ensures Compare(Eq, a, a) == Decided(true)
  {
    DefinedMeansAgree(Eq, a, a);
    AgreeReflexive(Eq, a);
  }

  /** The range overload as the source writes it: a loop over both ranges that
      delegates each aligned pair to `Compare`. */
  method CompareRanges(m: Mode, xs: seq<Value>, ys: seq<Value>) returns (r: Outcome)
    ensures r == Compare(m, List(xs), List(ys))
    ensures r == Decided(true) ==> |xs| == |ys|
  {
    if |xs| == 0 || |ys| == 0 {
      return Undefined;
    }
    var k := 0;
    while true
      invariant 0 <= k < |xs| && k < |ys|
      invariant CompareItems(m, xs[k..], ys[k..]) == CompareItems(m, xs, ys)
      decreases |xs| - k
    {
      var e := Compare(m, xs[k], ys[k]);
      if e.Undefined? {
        return Undefined;
      }
      if !e.holds {
        return Decided(false);
      }
      assert xs[k..][1..] == xs[k + 1..] && ys[k..][1..] == ys[k + 1..];
      k := k + 1;
      var leftEnd := k == |xs|;
      var rightEnd := k == |ys|;
      if leftEnd != rightEnd {
        return Decided(false);
      }
      if leftEnd || rightEnd {
        break;
      }
    }
    r := Decided(true);
  }

  /** The comparisons the harness's own example exercises. */
  lemma ExampleContainers()
    ensures Compare(Eq, Ints([1, 2, 3]), Ints([1, 2])) == Decided(false)
    ensures Compare(Eq, Ints([1, 2]), Ints([1, 2, 3])) == Decided(false)
    ensures Compare(Eq, Ints([1, 2, 3]), Ints([1, 2, 3])) == Decided(true)
    ensures Compare(Eq, Ints([1, 2, 3]), Ints([1, 2, 1928])) == Decided(false)
    ensures Compare(Ne, Ints([1, 2, 3]), Ints([1, 9, 3])) == Decided(false)
    ensures Compare(Ne, Ints([1, 2, 3]), Ints([4, 5, 6])) == Decided(true)
  {
    FlatCompare(Eq, [1, 2, 3], [1, 2]);
    FlatCompare(Eq, [1, 2], [1, 2, 3]);
    FlatCompare(Eq, [1, 2, 3], [1, 2, 3]);
    FlatCompare(Eq, [1, 2, 3], [1, 2, 1928]);
    FlatCompare(Ne, [1, 2, 3], [1, 9, 3]);
    FlatCompare(Ne, [1, 2, 3], [4, 5, 6]);
  }
}

=== FILE: fixture.dfy ===
/** One test fixture of the utest.cc generation of the harness: its counters,
    its section stack, and the verbosity-gated reporting of each case. */
module Fixtures {
  import opened Output
  import opened Sections
  import opened TestBody

  /** `verbosity`, in increasing order of detail. */
  datatype Verbosity = Quiet | Failures | Passed | Everything

  function Level(v: Verbosity): nat
  {
    match v
    case Quiet => 0
    case Failures => 1
    case Passed => 2
    case Everything => 3
  }

  /** `v >= w` on the enum. */
  predicate AtLeast(v: Verbosity, w: Verbosity) { Level(v) >= Level(w) }

  /** A case gets a header line at verbosity `v`. */
  predicate Shown(v: Verbosity, success: bool)
  {
    AtLeast(v, Failures) && (!success || AtLeast(v, Passed))
  }

  /** A case gets its expression and operands printed at verbosity `v`. */
  predicate Detailed(v: Verbosity, success: bool)
  {
    Shown(v, success) && (!success || AtLeast(v, Everything))
  }

  /** A declared fixture: its identity and its body. */
  datatype Declaration = Declaration(group: string, name: string, body: seq<Stmt>)

  /** A body whose sections never nest past the 32-slot array. */
  predicate Fits(d: Declaration) { Depth(d.body) < Capacity }

  datatype Fixture = Fixture(
    group: string,
    name: string,
    sections: SectionStack,
    cases: int,
    caseIndex: int,
    errors: int,
    printedSomething: bool)

  /** The state a fixture starts its run in. */
  function Fresh(group: string, name: string): (f: Fixture)
    ensures Consistent(f) && f.cases == 0 && f.errors == 0 && !f.printedSomething
    ensures f.sections.current == 0 && f.sections.changed
  {
    Fixture(group, name, Initial(), 0, 0, 0, false)
  }

  /** What every fixture state reachable by running a body satisfies. */
  predicate Consistent(f: Fixture)
  {
    Valid(f.sections) && 0 <= f.errors <= f.cases && f.caseIndex == f.cases
  }

  /** `setup()`: the banner, unless quiet. */
  function Setup(f: Fixture, v: Verbosity): (e: seq<Event>)
    ensures |e| <= 1 && (|e| == 1 <==> v != Quiet)
    ensures forall ev :: ev in e ==> ev == Banner(f.group, f.name)
  {
    if Level(v) > Level(Quiet) then [Banner(f.group, f.name)] else []
  }

  /** `add_case()`. */
  function AddCase(f: Fixture): (r: Fixture)
    ensures r.cases == f.cases + 1
    ensures r == f.(cases := r.cases)
  {
    f.(cases := f.cases + 1)
  }

  /** The lines `add_result` prints for a case the verbosity shows: a blank
      line before the fixture's first output, the section header if stale, a
      blank line before a failure, the case header, and the expression and
      operands when detailed. Also returns the section stack after
      `print_section()`. */
  function ReportCase(f: Fixture, v: Verbosity, success: bool): (r: (SectionStack, seq<Event>))
    requires Valid(f.sections) && Shown(v, success)
    ensures Valid(r.0) && !r.0.changed
    ensures r.0.names == f.sections.names && r.0.current == f.sections.current
    ensures r.1 != [] && (!f.printedSomething ==> r.1[0] == BlankLine)
    ensures r.1[0] == BlankLine <==> !f.printedSomething || (!success && !f.sections.changed)
    ensures SectionHeader(Path(f.sections)) in r.1 <==> f.sections.changed
    ensures Headers(r.1) == [(f.caseIndex, success)]
    ensures Details(r.1) == if Detailed(v, success) then [f.caseIndex] else []
    ensures SectionPaths(r.1) == if f.sections.changed then [Path(f.sections)] else []
    ensures CaseLines(r.1)
  {
    var opening := if !f.printedSomething then [BlankLine] else [];
    var (sections, header) := PrintSection(f.sections);
    var gap := if !success then [BlankLine] else [];
    var detail :=
      if !success || Level(v) >= Level(Everything) then [CaseDetail(f.caseIndex), BlankLine] else [];
    CaseReport(opening, header, gap, Path(f.sections), f.caseIndex, success, detail);
    (sections, opening + header + gap + [CaseHeader(f.caseIndex, success)] + detail)
  }

  /** The lines of one reported case, assembled from their optional parts. */
  lemma CaseReport(opening: seq<Event>, header: seq<Event>, gap: seq<Event>, path: string,
                   i: int, success: bool, detail: seq<Event>)
    requires opening == [] || opening == [BlankLine]
    requires header == [] || header == [SectionHeader(path)]
    requires gap == [] || gap == [BlankLine]
    requires detail == [] || detail == [CaseDetail(i), BlankLine]
    ensures var w := opening + header + gap + [CaseHeader(i, success)] + detail;
      w != [] && (w[0] == BlankLine <==> opening != [] || (header == [] && gap != [])) &&
      (SectionHeader(path) in w <==> header != []) &&
      Headers(w) == [(i, success)] &&
      Details(w) == (if detail == [] then [] else [i]) &&
      SectionPaths(w) == (if header == [] then [] else [path]) &&
      CaseLines(w)
  {
    var pre := opening + header + gap;
    LeadingLines(opening, header, gap, path);
    ReportedCaseEvents(pre, i, success, detail);
    CaseShape(opening, header, gap, path, i, success, detail);
  }

  /** Where the blank lines and the section header sit among a case's lines. */
  lemma CaseShape(opening: seq<Event>, header: seq<Event>, gap: seq<Event>, path: string,
                  i: int, success: bool, detail: seq<Event>)
    requires opening == [] || opening == [BlankLine]
    requires header == [] || header == [SectionHeader(path)]
    requires gap == [] || gap == [BlankLine]
    requires detail == [] || detail == [CaseDetail(i), BlankLine]
    ensures var w := opening + header + gap + [CaseHeader(i, success)] + detail;
      w != [] && (w[0] == BlankLine <==> opening != [] || (header == [] && gap != [])) &&
      (SectionHeader(path) in w <==> header != [])
  {
    var w := opening + header + gap + [CaseHeader(i, success)] + detail;
    if opening != [] {
      assert w[0] == opening[0];
    } else if header != [] {
      assert w[0] == header[0];
    } else if gap != [] {
      assert w[0] == gap[0];
    } else {
      assert w[0] == CaseHeader(i, success);
    }
  }

  /** `add_result(success, ...)`: count the failure, print whatever the
      verbosity asks for, and advance the case index. */
  function AddResult(f: Fixture, v: Verbosity, success: bool): (r: (Fixture, seq<Event>))
    requires Valid(f.sections)
    ensures var g := r.0;
      g.group == f.group && g.name == f.name && g.cases == f.cases &&
      g.errors == f.errors + (if success then 0 else 1) &&
      g.caseIndex == f.caseIndex + 1
    ensures Valid(r.0.sections) && r.0.sections.names == f.sections.names
    ensures r.0.sections.current == f.sections.current
    ensures r.0.sections.changed == (f.sections.changed && !Shown(v, success))
    ensures r.0.printedSomething == (f.printedSomething || Shown(v, success))
    ensures r.1 == [] <==> !Shown(v, success)
    ensures !f.printedSomething && Shown(v, success) ==> r.1[0] == BlankLine
    ensures SectionHeader(Path(f.sections)) in r.1 <==> Shown(v, success) && f.sections.changed
    ensures Headers(r.1) == if Shown(v, success) then [(f.caseIndex, success)] else []
    ensures Details(r.1) == if Detailed(v, success) then [f.caseIndex] else []
    ensures SectionPaths(r.1) == if Shown(v, success) && f.sections.changed then [Path(f.sections)] else []
    ensures CaseLines(r.1)
  {
    var errors := if !success then f.errors + 1 else f.errors;
    var g := f.(errors := errors, caseIndex := f.caseIndex + 1);
    if Level(v) > Level(Quiet) && (!success || Level(v) >= Level(Passed)) then
      var report := ReportCase(f, v, success);
      (g.(printedSomething := true, sections := report.0), report.1)
    else
      (g, [])
  }

  /** The events `add_result` prints for one shown case: lines that report no
      case, the case's header, then possibly its detail. */
  lemma ReportedCaseEvents(prefix: seq<Event>, i: int, success: bool, detail: seq<Event>)
    requires forall k :: 0 <= k < |prefix| ==> !prefix[k].CaseHeader? && !prefix[k].CaseDetail?
    requires CaseLines(prefix)
    requires detail == [] || detail == [CaseDetail(i), BlankLine]
    ensures Headers(prefix + [CaseHeader(i, success)] + detail) == [(i, success)]
    ensures Details(prefix + [CaseHeader(i, success)] + detail) == if detail == [] then [] else [i]
    ensures SectionPaths(prefix + [CaseHeader(i, success)] + detail) == SectionPaths(prefix)
    ensures CaseLines(prefix + [CaseHeader(i, success)] + detail)
  {
    SingleEvent(CaseHeader(i, success));
    CaseLinesAppend(prefix, [CaseHeader(i, success)]);
    CaseLinesAppend(prefix + [CaseHeader(i, success)], detail);
    NoCaseEvents(prefix);
    HeadersAppend(prefix, [CaseHeader(i, success)]);
    HeadersAppend(prefix + [CaseHeader(i, success)], detail);
    assert Headers([CaseHeader(i, success)]) == [(i, success)] by {
      assert [CaseHeader(i, success)][1..] == [];
    }
    assert Details([CaseHeader(i, success)]) == [] by {
      assert [CaseHeader(i, success)][1..] == [];
    }
    if detail != [] {
      assert detail[1..][1..] == [];
      assert Headers(detail) == [] && Details(detail) == [i];
    }
  }

  /** The lines before a case header: an optional blank line, the section
      header if stale, an optional blank line. */
  lemma LeadingLines(opening: seq<Event>, header: seq<Event>, gap: seq<Event>, path: string)
    requires opening == [] || opening == [BlankLine]
    requires header == [] || header == [SectionHeader(path)]
    requires gap == [] || gap == [BlankLine]
    ensures forall k :: 0 <= k < |opening + header + gap| ==>
      !(opening + header + gap)[k].CaseHeader? && !(opening + header + gap)[k].CaseDetail?
    ensures CaseLines(opening + header + gap)
    ensures SectionPaths(opening + header + gap) == if header == [] then [] else [path]
  {
    var pre := opening + header + gap;
    assert forall k :: 0 <= k < |pre| ==> pre[k] == BlankLine || pre[k] == SectionHeader(path);
    LeadingPaths(opening, header, gap, path);
  }

  lemma LeadingPaths(opening: seq<Event>, header: seq<Event>, gap: seq<Event>, path: string)
    requires opening == [] || opening == [BlankLine]
    requires header == [] || header == [SectionHeader(path)]
    requires gap == [] || gap == [BlankLine]
    ensures SectionPaths(opening + header + gap) == if header == [] then [] else [path]
  {
    HeadersAppend(opening, header);
    HeadersAppend(opening + header, gap);
    SingleEvent(BlankLine);
    SingleEvent(SectionHeader(path));
  }

  /** The header lines the outcomes `outs` should get at verbosity `v`, in
      order: the index (counted from `start`) and outcome of each shown case. */
  function ShownCases(outs: seq<bool>, start: int, v: Verbosity): seq<(int, bool)>
  {
    if |outs| == 0 then []
    else (if Shown(v, outs[0]) then [(start, outs[0])] else []) + ShownCases(outs[1..], start + 1, v)
  }

  /** Indices, counted from `start` and in order, of the outcomes printed in detail. */
  function DetailedCases(outs: seq<bool>, start: int, v: Verbosity): seq<int>
  {
    if |outs| == 0 then []
    else (if Detailed(v, outs[0]) then [start] else []) + DetailedCases(outs[1..], start + 1, v)
  }

  predicate AnyShown(outs: seq<bool>, v: Verbosity)
  {
    exists i :: 0 <= i < |outs| && Shown(v, outs[i])
  }

  lemma IndicesAppend(a: seq<bool>, b: seq<bool>, start: int, v: Verbosity)
    ensures ShownCases(a + b, start, v) == ShownCases(a, start, v) + ShownCases(b, start + |a|, v)
    ensures DetailedCases(a + b, start, v) == DetailedCases(a, start, v) + DetailedCases(b, start + |a|, v)
    ensures AnyShown(a + b, v) <==> AnyShown(a, v) || AnyShown(b, v)
  {
    ShownAppend(a, b, start, v);
    DetailedAppend(a, b, start, v);
    if AnyShown(a + b, v) {
      var i :| 0 <= i < |a + b| && Shown(v, (a + b)[i]);
      if i >= |a| {
        assert b[i - |a|] == (a + b)[i];
      }
    }
    if AnyShown(a, v) {
      var i :| 0 <= i < |a| && Shown(v, a[i]);
      assert (a + b)[i] == a[i];
    }
    if AnyShown(b, v) {
      var i :| 0 <= i < |b| && Shown(v, b[i]);
      assert (a + b)[|a| + i] == b[i];
    }
  }

  lemma {:induction false} ShownAppend(a: seq<bool>, b: seq<bool>, start: int, v: Verbosity)
    ensures ShownCases(a + b, start, v) == ShownCases(a, start, v) + ShownCases(b, start + |a|, v)
    decreases |a|
  {
    if |a| == 0 {
      assert a + b == b;
    } else {
      assert (a + b)[0] == a[0] && (a + b)[1..] == a[1..] + b;
      ShownAppend(a[1..], b, start + 1, v);
      var head := if Shown(v, a[0]) then [(start, a[0])] else [];
      assert ShownCases(a + b, start, v) == head + (ShownCases(a[1..], start + 1, v) + ShownCases(b, start + |a|, v));
      assert ShownCases(a, start, v) == head + ShownCases(a[1..], start + 1, v);
    }
  }

  lemma {:induction false} DetailedAppend(a: seq<bool>, b: seq<bool>, start: int, v: Verbosity)
    ensures DetailedCases(a + b, start, v) == DetailedCases(a, start, v) + DetailedCases(b, start + |a|, v)
    decreases |a|
  {
    if |a| == 0 {
      assert a + b == b;
    } else {
      assert (a + b)[0] == a[0] && (a + b)[1..] == a[1..] + b;
      DetailedAppend(a[1..], b, start + 1, v);
      var head := if Detailed(v, a[0]) then [start] else [];
      assert DetailedCases(a + b, start, v) == head + (DetailedCases(a[1..], start + 1, v) + DetailedCases(b, start + |a|, v));
      assert DetailedCases(a, start, v) == head + DetailedCases(a[1..], start + 1, v);
    }
  }

  /** Entering a section opens one more, innermost, section on the fixture's
      stack and marks its header stale; the counters are untouched. */
  function Enter(f: Fixture, name: string): (r: Fixture)
    requires Valid(f.sections) && f.sections.current < Capacity - 1
    ensures Valid(r.sections) && Open(r.sections) == Open(f.sections) + [name]
    ensures Path(r.sections) == Path(f.sections) + "." + name && r.sections.changed
    ensures r == f.(sections := r.sections)
  {
    PathOfPush(f.sections, name);
    assert Open(Push(f.sections, name)) == Open(f.sections) + [name];
    f.(sections := Push(f.sections, name))
  }

  /** Leaving closes the innermost section and marks the header stale; the
      counters are untouched. */
  function Leave(f: Fixture): (r: Fixture)
    requires Valid(f.sections) && f.sections.current > 0
    ensures Valid(r.sections) && Open(r.sections) == Open(f.sections)[..f.sections.current]
    ensures r.sections.changed
    ensures r == f.(sections := r.sections)
  {
    assert Open(Pop(f.sections)) == Open(f.sections)[..f.sections.current];
    f.(sections := Pop(f.sections))
  }

  /** `p` is the path `root` or the path of a section nested inside it. */
  predicate Within(p: string, root: string)
  {
    p == root || (|p| > |root| && p[..|root| + 1] == root + ".")
  }

  /** Every section header among `events` names `root` or a section inside it. */
  predicate SectionsWithin(events: seq<Event>, root: string)
  {
    AllWithin(SectionPaths(events), root)
  }

  predicate AllWithin(paths: seq<string>, root: string)
  {
    |paths| == 0 || (Within(paths[0], root) && AllWithin(paths[1..], root))
  }

  lemma {:induction false} AllWithinAppend(a: seq<string>, b: seq<string>, root: string)
    requires AllWithin(a, root) && AllWithin(b, root)
    ensures AllWithin(a + b, root)
    decreases |a|
  {
    if |a| == 0 {
      assert a + b == b;
    } else {
      assert (a + b)[0] == a[0] && (a + b)[1..] == a[1..] + b;
      AllWithinAppend(a[1..], b, root);
    }
  }

  lemma SectionsWithinAppend(a: seq<Event>, b: seq<Event>, root: string)
    requires SectionsWithin(a, root) && SectionsWithin(b, root)
    ensures SectionsWithin(a + b, root)
  {
    HeadersAppend(a, b);
    AllWithinAppend(SectionPaths(a), SectionPaths(b), root);
  }

  /** A path inside section `name` of `root` is also inside `root`. */
  lemma SectionsWithinParent(events: seq<Event>, root: string, name: string)
    requires SectionsWithin(events, root + "." + name)
    ensures SectionsWithin(events, root)
  {
    AllWithinParent(SectionPaths(events), root, name);
  }

  lemma {:induction false} AllWithinParent(paths: seq<string>, root: string, name: string)
    requires AllWithin(paths, root + "." + name)
    ensures AllWithin(paths, root)
    decreases |paths|
  {
    if |paths| > 0 {
      var p, q := paths[0], root + "." + name;
      assert q[..|root| + 1] == root + ".";
      if p != q {
        assert p[..|root| + 1] == p[..|q| + 1][..|root| + 1];
      }
      AllWithinParent(paths[1..], root, name);
    }
  }

  /** What running `ss` does to a fixture and prints: the contract shared by
      `RunStmt` and `RunStmts`. */
  predicate RunsAs(f: Fixture, ss: seq<Stmt>, v: Verbosity, g: Fixture, events: seq<Event>)
    requires Valid(f.sections)
  {
    var outs := Outcomes(ss);
    g.group == f.group && g.name == f.name &&
    g.cases == f.cases + |outs| && g.caseIndex == f.caseIndex + |outs| &&
    g.errors == f.errors + CountFalse(outs) &&
    Valid(g.sections) && g.sections.current == f.sections.current &&
    Open(g.sections) == Open(f.sections) &&
    g.printedSomething == (f.printedSomething || AnyShown(outs, v)) &&
    (events == [] <==> !AnyShown(outs, v)) &&
    Headers(events) == ShownCases(outs, f.caseIndex, v) &&
    Details(events) == DetailedCases(outs, f.caseIndex, v)
  }

  /** One statement of `run()`, applied to the fixture that is current: an
      assertion is `add_case` then `add_result`, a section a push and a pop
      around its body. */
  function RunStmt(f: Fixture, s: Stmt, v: Verbosity): (r: (Fixture, seq<Event>))
    requires Valid(f.sections) && f.sections.current + Depth([s]) < Capacity
    ensures RunsAs(f, [s], v, r.0, r.1)
    decreases s
  {
    SingleStmt(s);
    match s
    case Check(ok) =>
      ShownSingle(ok, v);
      CheckStep(f, ok, v);
      AddResult(AddCase(f), v, ok)
    case Section(n, body) =>
      var (g, e) := RunStmts(Enter(f, n), body, v);
      SectionStep(f, n, body, v, g, e);
      (Leave(g), e)
  }

  /** `run()` of a fixture, applied to the fixture that is current. */
  function RunStmts(f: Fixture, ss: seq<Stmt>, v: Verbosity): (r: (Fixture, seq<Event>))
    requires Valid(f.sections) && f.sections.current + Depth(ss) < Capacity
    ensures RunsAs(f, ss, v, r.0, r.1)
    decreases ss
  {
    if |ss| == 0 then (f, [])
    else
      SplitFirst(ss);
      var (f1, e1) := RunStmt(f, ss[0], v);
      var (f2, e2) := RunStmts(f1, ss[1..], v);
      IndicesAppend(Outcomes([ss[0]]), Outcomes(ss[1..]), f.caseIndex, v);
      CountFalseAppend(Outcomes([ss[0]]), Outcomes(ss[1..]));
      HeadersAppend(e1, e2);
      (f2, e1 + e2)
  }

  /** Running one statement prints nothing but blank lines, section headers,
      case headers and details, and every section header names the current
      section or one nested inside it. */
  lemma {:induction false} StmtLines(f: Fixture, s: Stmt, v: Verbosity)
    requires Valid(f.sections) && f.sections.current + Depth([s]) < Capacity
    ensures CaseLines(RunStmt(f, s, v).1) && SectionsWithin(RunStmt(f, s, v).1, Path(f.sections))
    decreases s
  {
    SingleStmt(s);
    match s
    case Check(ok) =>
      var e := AddResult(AddCase(f), v, ok).1;
      assert RunStmt(f, s, v).1 == e;
      assert SectionsWithin(e, Path(f.sections));
    case Section(n, body) =>
      var g := Enter(f, n);
      BodyLines(g, body, v);
      assert RunStmt(f, s, v).1 == RunStmts(g, body, v).1;
      SectionsWithinParent(RunStmts(g, body, v).1, Path(f.sections), n);
  }

  /** The same for a whole body: it prints only a case's lines, and only
      section headers at or below the fixture's current section. */
  lemma {:induction false} BodyLines(f: Fixture, ss: seq<Stmt>, v: Verbosity)
    requires Valid(f.sections) && f.sections.current + Depth(ss) < Capacity
    ensures CaseLines(RunStmts(f, ss, v).1) && SectionsWithin(RunStmts(f, ss, v).1, Path(f.sections))
    decreases ss
  {
    if |ss| > 0 {
      SplitFirst(ss);
      var (f1, e1) := RunStmt(f, ss[0], v);
      var e2 := RunStmts(f1, ss[1..], v).1;
      assert RunStmts(f, ss, v).1 == e1 + e2;
      StmtLines(f, ss[0], v);
      BodyLines(f1, ss[1..], v);
      CaseLinesAppend(e1, e2);
      assert Path(f1.sections) == Path(f.sections);
      SectionsWithinAppend(e1, e2, Path(f.sections));
    }
  }

  /** An assertion runs as its one outcome says. */
  lemma CheckStep(f: Fixture, ok: bool, v: Verbosity)
    requires Valid(f.sections)
    ensures RunsAs(f, [Check(ok)], v, AddResult(AddCase(f), v, ok).0, AddResult(AddCase(f), v, ok).1)
  {
    var outs := [ok];
    assert outs[1..] == [];
    SingleStmt(Check(ok));
    ShownSingle(ok, v);
    var f1 := AddCase(f);
    var r := AddResult(f1, v, ok);
    var g, events := r.0, r.1;
    assert |outs| == 1;
    assert CountFalse(outs) == if ok then 0 else 1;
    assert ShownCases(outs, f.caseIndex, v) == if Shown(v, ok) then [(f.caseIndex, ok)] else [];
    assert DetailedCases(outs, f.caseIndex, v) == if Detailed(v, ok) then [f.caseIndex] else [];
    assert g.cases == f.cases + 1 && g.caseIndex == f.caseIndex + 1;
    assert g.errors == f.errors + CountFalse(outs);
    assert Open(g.sections) == Open(f.sections);
    assert Headers(events) == ShownCases(outs, f.caseIndex, v);
    assert Details(events) == DetailedCases(outs, f.caseIndex, v);
  }

  /** A section runs as its body does, inside a push and a pop. */
  lemma SectionStep(f: Fixture, n: string, body: seq<Stmt>, v: Verbosity, g: Fixture, e: seq<Event>)
    requires Valid(f.sections) && f.sections.current < Capacity - 1
    requires RunsAs(Enter(f, n), body, v, g, e)
    ensures g.sections.current > 0
    ensures RunsAs(f, [Section(n, body)], v, Leave(g), e)
  {
    SingleStmt(Section(n, body));
    PushThenPop(f.sections, n);
    var p := Push(f.sections, n);
    assert Open(g.sections) == Open(p);
    assert Open(Pop(g.sections)) == Open(g.sections)[..g.sections.current];
    assert Open(Pop(p)) == Open(p)[..p.current];
  }

  /** A single outcome is shown exactly when the verbosity shows it. */
  lemma ShownSingle(ok: bool, v: Verbosity)
    ensures AnyShown([ok], v) <==> Shown(v, ok)
  {
    if AnyShown([ok], v) {
      var i :| 0 <= i < 1 && Shown(v, [ok][i]);
    }
    if Shown(v, ok) {
      assert [ok][0] == ok;
    }
  }

  /** `teardown()`: the closing line is chosen by whether anything was printed
      and whether any case failed, and always reports `cases - errors` of
      `cases`. */
  function Teardown(f: Fixture): (e: Event)
    ensures e.FixtureSummary? && e.passed == f.cases - f.errors && e.total == f.cases
    ensures e.closing in {PassedAfterOutput, PassedInline} <==> f.errors == 0
    ensures e.closing in {PassedAfterOutput, FailedAfterOutput} <==> f.printedSomething
  {
    if f.printedSomething then
      if f.errors == 0 then FixtureSummary(PassedAfterOutput, f.cases - f.errors, f.cases)
      else FixtureSummary(FailedAfterOutput, f.cases - f.errors, f.cases)
    else
      if f.errors == 0 then FixtureSummary(PassedInline, f.cases - f.errors, f.cases)
      else FixtureSummary(FailedInline, f.cases - f.errors, f.cases)
  }

  /** `setup()`, `run()` and `teardown()` of one fixture that is current while
      it runs, starting from its fresh state. */
  function RunFixture(d: Declaration, v: Verbosity): (r: (Fixture, seq<Event>))
    requires Fits(d)
    ensures Consistent(r.0)
    ensures r.0.group == d.group && r.0.name == d.name
    ensures r.0.cases == CaseCount(d.body) && r.0.errors == FailureCount(d.body)
    ensures r.0.printedSomething == AnyShown(Outcomes(d.body), v)
    ensures |r.1| > 0 && r.1[|r.1| - 1] == Teardown(r.0)
    ensures v != Quiet ==> r.1[0] == Banner(d.group, d.name)
    ensures Headers(r.1) == ShownCases(Outcomes(d.body), 0, v)
    ensures Details(r.1) == DetailedCases(Outcomes(d.body), 0, v)
  {
    var f := Fresh(d.group, d.name);
    var banner := Setup(f, v);
    var (g, events) := RunStmts(f, d.body, v);
    FailuresAtMostCases(d.body);
    assert RunsAs(f, d.body, v, g, events);
    NoCaseEvents(banner);
    NoCaseEvents([Teardown(g)]);
    HeadersAppend(banner, events);
    HeadersAppend(banner + events, [Teardown(g)]);
    (g, banner + events + [Teardown(g)])
  }

  /** How many lines `setup()` prints before the body runs. */
  function BannerLines(v: Verbosity): nat { if v == Quiet then 0 else 1 }

  /** What a fixture prints between its banner (if any) and its closing line:
      only a case's lines, whose section headers all name "main" or a section
      inside it. */
  lemma FixtureLayout(d: Declaration, v: Verbosity)
    requires Fits(d)
    ensures |RunFixture(d, v).1| > BannerLines(v)
    ensures CaseLines(RunFixture(d, v).1[BannerLines(v)..|RunFixture(d, v).1| - 1])
    ensures SectionsWithin(RunFixture(d, v).1[BannerLines(v)..|RunFixture(d, v).1| - 1], "main")
  {
    var f := Fresh(d.group, d.name);
    var banner := Setup(f, v);
    var (g, events) := RunStmts(f, d.body, v);
    BodyLines(f, d.body, v);
    RootPath();
    var e := RunFixture(d, v).1;
    var n := BannerLines(v);
    assert e == banner + events + [Teardown(g)];
    assert |banner| == n;
    assert e[n..|e| - 1] == events;
  }

  /** Which cases get a header line: exactly those the verbosity shows, each
      with its own outcome. */
  lemma {:induction false} ShownCasesMeaning(outs: seq<bool>, start: int, v: Verbosity, i: int, ok: bool)
    ensures (i, ok) in ShownCases(outs, start, v) <==>
      start <= i < start + |outs| && ok == outs[i - start] && Shown(v, ok)
    ensures i in DetailedCases(outs, start, v) <==>
      start <= i < start + |outs| && Detailed(v, outs[i - start])
    decreases |outs|
  {
    if |outs| > 0 {
      ShownCasesMeaning(outs[1..], start + 1, v, i, ok);
      if start + 1 <= i < start + |outs| {
        assert outs[1..][i - (start + 1)] == outs[i - start];
      }
    }
  }

  /** Header lines come in case order. */
  predicate Ascending(hs: seq<(int, bool)>)
  {
    forall p, q :: 0 <= p < q < |hs| ==> hs[p].0 < hs[q].0
  }

  /** Every case gets at most one header line and at most one detail, in
      case order, and only cases `start` onwards appear. */
  lemma {:induction false} CasesPrintedOnce(outs: seq<bool>, start: int, v: Verbosity)
    ensures Ascending(ShownCases(outs, start, v))
    ensures forall p, q :: 0 <= p < q < |DetailedCases(outs, start, v)| ==>
      DetailedCases(outs, start, v)[p] < DetailedCases(outs, start, v)[q]
    ensures forall p :: 0 <= p < |ShownCases(outs, start, v)| ==> start <= ShownCases(outs, start, v)[p].0
    ensures forall p :: 0 <= p < |DetailedCases(outs, start, v)| ==> start <= DetailedCases(outs, start, v)[p]
    decreases |outs|
  {
    if |outs| > 0 {
      CasesPrintedOnce(outs[1..], start + 1, v);
    }
  }

  /** Raising the verbosity never hides a case that was shown, nor the detail
      of a case that was shown in detail. */
  lemma {:induction false} IndicesMonotone(outs: seq<bool>, start: int, v: Verbosity, w: Verbosity)
    requires AtLeast(w, v)
    ensures forall c :: c in ShownCases(outs, start, v) ==> c in ShownCases(outs, start, w)
    ensures forall i :: i in DetailedCases(outs, start, v) ==> i in DetailedCases(outs, start, w)
  {
    forall c | c in ShownCases(outs, start, v) ensures c in ShownCases(outs, start, w) {
      ShownCasesMeaning(outs, start, v, c.0, c.1);
      ShownCasesMeaning(outs, start, w, c.0, c.1);
    }
    forall i | i in DetailedCases(outs, start, v) ensures i in DetailedCases(outs, start, w) {
      ShownCasesMeaning(outs, start, v, i, true);
      ShownCasesMeaning(outs, start, w, i, true);
    }
  }

  /** The cases a fixture reports, and reports in detail, grow with the
      verbosity. */
  lemma PrintedCasesMonotone(d: Declaration, v: Verbosity, w: Verbosity)
    requires Fits(d) && AtLeast(w, v)
    ensures forall c :: c in Headers(RunFixture(d, v).1) ==> c in Headers(RunFixture(d, w).1)
    ensures forall i :: i in Details(RunFixture(d, v).1) ==> i in Details(RunFixture(d, w).1)
  {
    IndicesMonotone(Outcomes(d.body), 0, v, w);
  }

  /** At the default verbosity every failing case gets one header line, which
      carries its failure, and a detail; nothing else is reported. */
  lemma {:induction false} FailuresOnly(outs: seq<bool>, start: int)
    ensures |DetailedCases(outs, start, Failures)| == |ShownCases(outs, start, Failures)|
    ensures forall p :: 0 <= p < |ShownCases(outs, start, Failures)| ==>
      !ShownCases(outs, start, Failures)[p].1 &&
      DetailedCases(outs, start, Failures)[p] == ShownCases(outs, start, Failures)[p].0
    decreases |outs|
  {
    if |outs| > 0 {
      FailuresOnly(outs[1..], start + 1);
    }
  }

  /** At the default verbosity exactly the failing cases are reported, each
      once, as failures, and each with its detail. */
  lemma FailuresVerbosityReportsFailures(d: Declaration, i: int, ok: bool)
    requires Fits(d)
    ensures (i, ok) in Headers(RunFixture(d, Failures).1) <==>
      0 <= i < CaseCount(d.body) && !ok && ok == Outcomes(d.body)[i]
    ensures Ascending(Headers(RunFixture(d, Failures).1))
    ensures |Details(RunFixture(d, Failures).1)| == |Headers(RunFixture(d, Failures).1)|
    ensures forall p :: 0 <= p < |Headers(RunFixture(d, Failures).1)| ==>
      Details(RunFixture(d, Failures).1)[p] == Headers(RunFixture(d, Failures).1)[p].0
  {
    var outs := Outcomes(d.body);
    ShownCasesMeaning(outs, 0, Failures, i, ok);
    CasesPrintedOnce(outs, 0, Failures);
    FailuresOnly(outs, 0);
  }

  /** When quiet, a fixture prints only its closing line, in the inline form. */
  lemma QuietFixturePrintsOnlyClosing(d: Declaration)
    requires Fits(d)
    ensures RunFixture(d, Quiet).1 == [Teardown(RunFixture(d, Quiet).0)]
    ensures Teardown(RunFixture(d, Quiet).0).closing in {PassedInline, FailedInline}
  {
    var f := Fresh(d.group, d.name);
    var (g, events) := RunStmts(f, d.body, Quiet);
    assert RunsAs(f, d.body, Quiet, g, events);
    assert !AnyShown(Outcomes(d.body), Quiet);
    assert events == [] && Setup(f, Quiet) == [];
    assert Setup(f, Quiet) + events + [Teardown(g)] == [Teardown(g)];
  }
}

=== FILE: header.dfy ===
/** The utest.h generation of the harness: fixtures chained into a singly
    linked list by their constructors, a three-level verbosity, and a runner
    that walks the chain from `begin` while the fixture is not `end`. */
module HeaderSuite {
  import opened Output
  import opened Sections
  import opened TestBody

  /** `verbosity` of this generation: there is no `passed` level. */
  datatype Verbosity = Quiet | Failures | Everything

  const DefaultVerbosity := Failures

  /** A `fixture*`: null, or the fixture at an index of the arena. */
  datatype Ptr = Null | At(index: nat)

  datatype Fixture = Fixture(
    name: string,
    body: seq<Stmt>,
    sections: SectionStack,
    cases: int,
    caseIndex: int,
    errors: int,
    next: Ptr)

  /** `suite::begin`, `suite::end`, `suite::current`, and every constructed
      fixture, in construction order. */
  datatype Registry = Registry(arena: seq<Fixture>, begin: Ptr, end: Ptr, current: Ptr)

  const Empty := Registry([], Null, Null, Null)

  function NewFixture(name: string, body: seq<Stmt>): Fixture
  {
    Fixture(name, body, Initial(), 0, 0, 0, Null)
  }

  /** Two fixtures that differ at most in their `next_test` link. */
  predicate SameButLink(f: Fixture, g: Fixture)
  {
    f.name == g.name && f.body == g.body && f.sections == g.sections &&
    f.cases == g.cases && f.caseIndex == g.caseIndex && f.errors == g.errors
  }

  /** The shape registration gives the registry: `begin` and `current` are the
      first fixture, `end` the last, and each fixture's `next_test` is the one
      constructed after it. */
  predicate Chained(reg: Registry)
  {
    if |reg.arena| == 0 then reg.begin == Null && reg.end == Null && reg.current == Null
    else Linked(reg)
  }

  /** The chain of a registry holding at least one fixture. */
  predicate Linked(reg: Registry)
  {
    var n := |reg.arena|;
    n > 0 &&
    reg.begin == At(0) && reg.end == At(n - 1) && reg.current == At(0) &&
    (forall k :: 0 <= k < n - 1 ==> reg.arena[k].next == At(k + 1)) &&
    reg.arena[n - 1].next == Null
  }

  /** The constructor `fixture()`: the first fixture becomes `begin`, `end`
      and `current`; every later one is linked after `end` and becomes `end`,
      leaving `current` where it was. */
  function Register(reg: Registry, name: string, body: seq<Stmt>): (r: Registry)
    requires Chained(reg)
    ensures Chained(r) && |r.arena| == |reg.arena| + 1
    ensures r.arena[|reg.arena|] == NewFixture(name, body)
    ensures forall k :: 0 <= k < |reg.arena| ==> SameButLink(r.arena[k], reg.arena[k])
    ensures r.current == if |reg.arena| == 0 then At(0) else reg.current
  {
    var n := |reg.arena|;
    var arena := reg.arena + [NewFixture(name, body)];
    if reg.begin.Null? || reg.end.Null? then Registry(arena, At(n), At(n), At(n))
    else
      var last := reg.end.index;
      Registry(arena[last := arena[last].(next := At(n))], reg.begin, At(n), reg.current)
  }

  datatype Declaration = Declaration(name: string, body: seq<Stmt>)

  /** A fixture as its constructor left it: nothing has run yet. */
  predicate Pristine(f: Fixture)
  {
    f.sections == Initial() && f.cases == 0 && f.caseIndex == 0 && f.errors == 0
  }

  predicate Unrun(reg: Registry)
  {
    forall k :: 0 <= k < |reg.arena| ==> Pristine(reg.arena[k])
  }

  /** Static initialisation of the declared fixtures, in declaration order. */
  function RegisterAll(reg: Registry, ds: seq<Declaration>): (r: Registry)
    requires Chained(reg)
    ensures Chained(r) && |r.arena| == |reg.arena| + |ds|
    ensures Unrun(reg) ==> Unrun(r)
    ensures forall k :: 0 <= k < |reg.arena| ==> SameButLink(r.arena[k], reg.arena[k])
    ensures forall k :: 0 <= k < |ds| ==>
      r.arena[|reg.arena| + k].name == ds[k].name && r.arena[|reg.arena| + k].body == ds[k].body
    decreases |ds|
  {
    if |ds| == 0 then reg
    else
      var r := RegisterAll(Register(reg, ds[0].name, ds[0].body), ds[1..]);
      assert forall k :: 1 <= k < |ds| ==> ds[1..][k - 1] == ds[k];
      r
  }

  /** After registering two or more fixtures, `current` still points at the
      first one: the constructor only sets it for the first fixture. */
  lemma CurrentStaysFirst(ds: seq<Declaration>)
    requires |ds| > 0
    ensures RegisterAll(Empty, ds).current == At(0)
    ensures RegisterAll(Empty, ds).end == At(|ds| - 1)
  {
  }

  // ------------------------------------------------------------- one fixture

  /** `add_case()`. */
  function AddCase(f: Fixture): (r: Fixture)
    ensures r.cases == f.cases + 1 && r == f.(cases := r.cases)
  {
    f.(cases := f.cases + 1)
  }

  /** A case gets its line printed in this generation: failures unless quiet,
      successes only at `everything`. */
  predicate Reported(v: Verbosity, success: bool)
  {
    if success then v == Everything else v != Quiet
  }

  /** `add_result(success, ...)` of utest.h: the section header is refreshed
      whenever not quiet, even if the case itself is not printed. */
  function AddResult(f: Fixture, v: Verbosity, success: bool): (r: (Fixture, seq<Event>))
    requires Valid(f.sections)
    ensures r.0 == f.(sections := r.0.sections, errors := r.0.errors, caseIndex := r.0.caseIndex)
    ensures r.0.errors == f.errors + (if success then 0 else 1)
    ensures r.0.caseIndex == f.caseIndex + 1
    ensures Valid(r.0.sections) && r.0.sections.names == f.sections.names
    ensures r.0.sections.current == f.sections.current
    ensures r.0.sections.changed == (f.sections.changed && v == Quiet)
    ensures SectionHeader(Path(f.sections)) in r.1 <==> v != Quiet && f.sections.changed
    ensures CaseHeader(f.caseIndex, success) in r.1 <==> Reported(v, success)
    ensures Headers(r.1) == if Reported(v, success) then [(f.caseIndex, success)] else []
    ensures SectionPaths(r.1) == if v != Quiet && f.sections.changed then [Path(f.sections)] else []
    ensures forall k :: 0 <= k < |r.1| ==> r.1[k].SectionHeader? || r.1[k].CaseHeader?
    ensures forall k :: 0 <= k < |r.1| && r.1[k].SectionHeader? ==> k == 0
  {
    var (sections, header) := if v != Quiet then PrintSection(f.sections) else (f.sections, []);
    var g := f.(sections := sections);
    var line := if Reported(v, success) then [CaseHeader(f.caseIndex, success)] else [];
    CaseOutput(header, line, Path(f.sections));
    if success then
      (g.(caseIndex := f.caseIndex + 1), header + line)
    else
      (g.(errors := f.errors + 1, caseIndex := f.caseIndex + 1), header + line)
  }

  /** The lines of one `add_result`: at most a section header, then at most
      the case line. */
  lemma CaseOutput(header: seq<Event>, line: seq<Event>, path: string)
    requires header == [] || header == [SectionHeader(path)]
    requires |line| <= 1 && forall e :: e in line ==> e.CaseHeader?
    ensures Headers(header + line) == if line == [] then [] else [(line[0].index, line[0].success)]
    ensures SectionPaths(header + line) == if header == [] then [] else [path]
    ensures forall k :: 0 <= k < |header + line| ==> (header + line)[k].SectionHeader? || (header + line)[k].CaseHeader?
    ensures forall k :: 0 <= k < |header + line| && (header + line)[k].SectionHeader? ==> k == 0
  {
    HeadersAppend(header, line);
    if header != [] {
      SingleEvent(header[0]);
    }
    if line != [] {
      assert line == [line[0]];
      SingleEvent(line[0]);
    }
  }

  /** At the default verbosity a passing case in a freshly entered section
      prints the section header and nothing else. */
  lemma PassingCasePrintsBareHeader(f: Fixture)
    requires Valid(f.sections) && f.sections.changed
    ensures AddResult(f, Failures, true).1 == [SectionHeader(Path(f.sections))]
  {
  }

  /** What running `ss` does to a fixture's counters and sections. */
  predicate RunsAs(f: Fixture, ss: seq<Stmt>, g: Fixture)
    requires Valid(f.sections)
  {
    g == f.(sections := g.sections, cases := g.cases, caseIndex := g.caseIndex, errors := g.errors) &&
    g.cases == f.cases + CaseCount(ss) && g.caseIndex == f.caseIndex + CaseCount(ss) &&
    g.errors == f.errors + FailureCount(ss) &&
    Valid(g.sections) && g.sections.current == f.sections.current
  }

  /** One statement of a fixture body, applied to fixture `f`. */
  function RunStmt(f: Fixture, s: Stmt, v: Verbosity): (r: Fixture)
    requires Valid(f.sections) && f.sections.current + Depth([s]) < Capacity
    ensures RunsAs(f, [s], r)
    decreases s
  {
    SingleStmt(s);
    match s
    case Check(ok) => AddResult(AddCase(f), v, ok).0
    case Section(n, body) =>
      var g := RunStmts(f.(sections := Push(f.sections, n)), body, v);
      g.(sections := Pop(g.sections))
  }

  /** A fixture body, applied to fixture `f`. */
  function RunStmts(f: Fixture, ss: seq<Stmt>, v: Verbosity): (r: Fixture)
    requires Valid(f.sections) && f.sections.current + Depth(ss) < Capacity
    ensures RunsAs(f, ss, r)
    decreases ss
  {
    if |ss| == 0 then f
    else
      SplitFirst(ss);
      RunStmts(RunStmt(f, ss[0], v), ss[1..], v)
  }

  // ------------------------------------------------------------------ runner

  /** A fixture whose section stack is back at the root. */
  predicate Idle(f: Fixture)
  {
    Valid(f.sections) && f.sections.current == 0
  }

  /** A registry `runall` can be called on: at least one fixture (with none,
      `begin` is null and is dereferenced), every fixture at the root section,
      and every body nesting within the 32 slots. */
  predicate Ready(reg: Registry)
  {
    Linked(reg) &&
    forall k :: 0 <= k < |reg.arena| ==> Idle(reg.arena[k]) && Depth(reg.arena[k].body) < Capacity
  }

  /** `fixture->run()` for the fixture at `at`. The body is written against
      `*suite::current`, so it is the current fixture, in state `cur`, whose
      counters and sections it updates; no body writes a `next_test` link. */
  function RunBody(reg: Registry, cur: Fixture, at: nat, v: Verbosity): (r: Fixture)
    requires Ready(reg) && at < |reg.arena| && Idle(cur)
    ensures Idle(r) && r.body == cur.body && r.next == cur.next
    ensures r.cases == cur.cases + CaseCount(reg.arena[at].body)
    ensures r.errors == cur.errors + FailureCount(reg.arena[at].body)
  {
    RunStmts(cur, reg.arena[at].body, v)
  }

  /** `*fixture` during the loop: the current fixture is in state `cur`, every
      other one is as registration left it. */
  function Deref(reg: Registry, cur: Fixture, at: nat): Fixture
    requires at < |reg.arena|
  {
    if At(at) == reg.current then cur else reg.arena[at]
  }

  datatype Totals = Totals(tests: int, cases: int, errors: int)

  /** Failures of the bodies of fixtures `lo` up to (excluding) `hi`. */
  function BodyFailures(arena: seq<Fixture>, lo: nat, hi: nat): nat
    requires lo <= hi <= |arena|
    decreases hi - lo
  {
    if lo == hi then 0 else FailureCount(arena[lo].body) + BodyFailures(arena, lo + 1, hi)
  }

  /** The `for` loop of `runall`, from fixture `at`, with the current fixture
      in state `cur`: stop when the fixture is `end`, otherwise set up, run and
      tear down, add the fixture's counters, and follow `next_test`. Every
      fixture from `at` on is visited except the last, and the current fixture
      collects the failures of every body that ran. */
  function Loop(reg: Registry, cur: Fixture, at: nat, v: Verbosity, t: Totals): (r: (Fixture, Totals))
    requires Ready(reg) && at < |reg.arena| && Idle(cur)
    ensures Idle(r.0) && r.0.body == cur.body && r.0.next == cur.next
    ensures r.1.tests == t.tests + (|reg.arena| - 1 - at)
    ensures r.0.errors == cur.errors + BodyFailures(reg.arena, at, |reg.arena| - 1)
    decreases |reg.arena| - at
  {
    if At(at) == reg.end then (cur, t)
    else
      var cur1 := RunBody(reg, cur, at, v);
      var f := Deref(reg, cur1, at);
      Loop(reg, cur1, reg.arena[at].next.index, v, Totals(t.tests + 1, t.cases + f.cases, t.errors + f.errors))
  }

  /** One turn of the loop: the fixture at `at` is not `end`, so its body runs
      and the loop carries on from the fixture after it. */
  lemma LoopStep(reg: Registry, cur: Fixture, at: nat, v: Verbosity, t: Totals)
    requires Ready(reg) && at < |reg.arena| && Idle(cur) && At(at) != reg.end
    ensures at + 1 < |reg.arena|
    ensures Loop(reg, cur, at, v, t) ==
      var cur1 := RunBody(reg, cur, at, v);
      var f := Deref(reg, cur1, at);
      Loop(reg, cur1, at + 1, v, Totals(t.tests + 1, t.cases + f.cases, t.errors + f.errors))
  {
    assert reg.arena[at].next == At(at + 1);
  }

  /** Past the first fixture, every fixture read is another one than the
      current, still as registered, so the loop adds nothing to the case and
      error totals. */
  lemma {:induction false} LoopAddsNothingLater(reg: Registry, cur: Fixture, at: nat, v: Verbosity, t: Totals)
    requires Ready(reg) && 0 < at < |reg.arena| && Idle(cur)
    requires forall k :: at <= k < |reg.arena| ==> reg.arena[k].cases == 0 && reg.arena[k].errors == 0
    ensures Loop(reg, cur, at, v, t).1.errors == t.errors && Loop(reg, cur, at, v, t).1.cases == t.cases
    decreases |reg.arena| - at
  {
    if At(at) != reg.end {
      LoopStep(reg, cur, at, v, t);
      var cur1 := RunBody(reg, cur, at, v);
      LoopAddsNothingLater(reg, cur1, at + 1, v, Totals(t.tests + 1, t.cases, t.errors));
    }
  }

  /** What the loop adds up from the first of two or more fixtures: the first
      fixture's counters after its own run, and nothing from the others. */
  lemma LoopCounts(reg: Registry, v: Verbosity)
    requires Ready(reg) && |reg.arena| > 1
    requires forall k :: 0 <= k < |reg.arena| ==> reg.arena[k].cases == 0 && reg.arena[k].errors == 0
    ensures Loop(reg, reg.arena[0], 0, v, Totals(0, 0, 0)).1.cases == CaseCount(reg.arena[0].body)
    ensures Loop(reg, reg.arena[0], 0, v, Totals(0, 0, 0)).1.errors == FailureCount(reg.arena[0].body)
  {
    var t := Totals(0, 0, 0);
    var cur := reg.arena[0];
    LoopStep(reg, cur, 0, v, t);
    var cur1 := RunBody(reg, cur, 0, v);
    assert Deref(reg, cur1, 0) == cur1;
    LoopAddsNothingLater(reg, cur1, 1, v, Totals(1, cur1.cases, cur1.errors));
  }

  /** `suite::runall()` of utest.h. With one fixture (`begin == end`) it runs
      that fixture; otherwise the loop stops as soon as it reaches `end`, so
      the last fixture never runs. Only the first fixture is ever written. */
  function RunAll(reg: Registry, v: Verbosity): (r: (Registry, Totals))
    requires Ready(reg)
    requires forall k :: 0 <= k < |reg.arena| ==> reg.arena[k].cases == 0 && reg.arena[k].errors == 0
    ensures Ready(r.0) && |r.0.arena| == |reg.arena|
    ensures forall k :: 1 <= k < |reg.arena| ==> r.0.arena[k] == reg.arena[k]
    ensures r.1.tests == if |reg.arena| == 1 then 1 else |reg.arena| - 1
    ensures r.1.errors == FailureCount(reg.arena[0].body)
    ensures r.1.cases == CaseCount(reg.arena[0].body)
    ensures r.0.arena[0].errors ==
      if |reg.arena| == 1 then FailureCount(reg.arena[0].body) else BodyFailures(reg.arena, 0, |reg.arena| - 1)
  {
    var c := reg.current.index;
    if reg.begin == reg.end then
      var cur := RunBody(reg, reg.arena[c], reg.begin.index, v);
      var f := Deref(reg, cur, reg.begin.index);
      (reg.(arena := reg.arena[c := cur]), Totals(1, f.cases, f.errors))
    else
      LoopCounts(reg, v);
      var r := Loop(reg, reg.arena[c], reg.begin.index, v, Totals(0, 0, 0));
      (reg.(arena := reg.arena[c := r.0]), r.1)
  }

  /** A declaration whose sections nest within the 32 slots. */
  predicate Fits(d: Declaration)
  {
    Depth(d.body) < Capacity
  }

  /** Registration keeps every declared body, at its declaration's position. */
  lemma RegisteredBodies(ds: seq<Declaration>)
    ensures forall k :: 0 <= k < |ds| ==> RegisterAll(Empty, ds).arena[k].body == ds[k].body
  {
    var reg := RegisterAll(Empty, ds);
    assert |Empty.arena| == 0;
    forall k | 0 <= k < |ds| ensures reg.arena[k].body == ds[k].body {
      assert reg.arena[|Empty.arena| + k].body == ds[k].body;
    }
  }

  /** Registering declarations whose sections fit gives a registry `runall`
      accepts. */
  lemma {:induction false} RegisteredIsReady(ds: seq<Declaration>)
    requires |ds| > 0
    requires forall k :: 0 <= k < |ds| ==> Fits(ds[k])
    ensures Ready(RegisterAll(Empty, ds))
    ensures forall k :: 0 <= k < |ds| ==>
      RegisterAll(Empty, ds).arena[k].cases == 0 && RegisterAll(Empty, ds).arena[k].errors == 0 &&
      RegisterAll(Empty, ds).arena[k].body == ds[k].body
  {
    var reg := RegisterAll(Empty, ds);
    RegisteredBodies(ds);
    assert Unrun(reg);
    forall k | 0 <= k < |ds| ensures Idle(reg.arena[k]) && Depth(reg.arena[k].body) < Capacity {
      assert Fits(ds[k]);
    }
  }

  /** Two fixtures, the second of which fails: the runner never runs the
      second, and reports one test and no failure. */
  lemma SecondFixtureIsSkipped(first: Declaration, second: Declaration)
    requires first.body == [Check(true)] && second.body == [Check(false)]
    ensures Ready(RegisterAll(Empty, [first, second]))
    ensures RunAll(RegisterAll(Empty, [first, second]), DefaultVerbosity).1 == Totals(1, 1, 0)
  {
    var ds := [first, second];
    SingleStmt(Check(true));
    SingleStmt(Check(false));
    RegisteredIsReady(ds);
  }

  /** Three fixtures: the second fixture's failing body runs, but against the
      first fixture, whose counters were already read, so the result is 0. */
  lemma MiddleFailureIsLost(a: Declaration, b: Declaration, c: Declaration)
    requires a.body == [] && b.body == [Check(false)] && c.body == []
    ensures Ready(RegisterAll(Empty, [a, b, c]))
    ensures RunAll(RegisterAll(Empty, [a, b, c]), DefaultVerbosity).1 == Totals(2, 0, 0)
    ensures RunAll(RegisterAll(Empty, [a, b, c]), DefaultVerbosity).0.arena[0].errors == 1
  {
    var ds := [a, b, c];
    SingleStmt(Check(false));
    RegisteredIsReady(ds);
    var reg := RegisterAll(Empty, ds);
    assert reg.arena[0].body == [] && reg.arena[1].body == [Check(false)];
    assert BodyFailures(reg.arena, 2, 2) == 0;
    assert BodyFailures(reg.arena, 1, 2) == 1;
    assert BodyFailures(reg.arena, 0, 2) == 1;
  }

  // ------------------------------------------------------------ command line

  predicate IsVerbosityFlag(a: string) { a == "--verbosity" || a == "-v" }

  /** The three `strcmp` tests of this generation: "passed" is not a word. */
  function ApplyWord(current: Verbosity, a: string): (v: Verbosity)
    ensures a !in {"quiet", "failures", "everything"} ==> v == current
    ensures a == "quiet" ==> v == Quiet
    ensures a == "failures" ==> v == Failures
    ensures a == "everything" ==> v == Everything
  {
    if a == "quiet" then Quiet
    else if a == "failures" then Failures
    else if a == "everything" then Everything
    else current
  }

  /** The `for` loop of `suite::run` in utest.h, from index `i`: a verbosity
      flag with a following argument consumes it. */
  function Scan(args: seq<string>, i: nat, v: Verbosity): Verbosity
    decreases |args| - i
  {
    if i >= |args| then v
    else if IsVerbosityFlag(args[i]) && i + 1 < |args| then Scan(args, i + 2, ApplyWord(v, args[i + 1]))
    else Scan(args, i + 1, v)
  }

  function ParseArgs(args: seq<string>): Verbosity
  {
    Scan(args, 0, DefaultVerbosity)
  }

  /** The word `w` is one of this generation's three and selects `v`. */
  predicate Names(w: string, v: Verbosity) { w in {"quiet", "failures", "everything"} && ApplyWord(v, w) == v }

  /** What the scan from index `i` can do: without verbosity flags nothing
      changes, and a changed verbosity was named by one of the three words
      right after a verbosity flag. */
  lemma {:induction false} ScanMeaning(args: seq<string>, i: nat, v: Verbosity)
    ensures (forall j :: i <= j < |args| ==> !IsVerbosityFlag(args[j])) ==> Scan(args, i, v) == v
    ensures Scan(args, i, v) == v ||
      exists j :: i < j < |args| && IsVerbosityFlag(args[j - 1]) && Names(args[j], Scan(args, i, v))
    decreases |args| - i
  {
    if i < |args| {
      if IsVerbosityFlag(args[i]) && i + 1 < |args| {
        var w := ApplyWord(v, args[i + 1]);
        ScanMeaning(args, i + 2, w);
        if Scan(args, i, v) == w && w != v {
          assert IsVerbosityFlag(args[i + 1 - 1]) && Names(args[i + 1], w);
        }
      } else {
        ScanMeaning(args, i + 1, v);
      }
    }
  }

  /** `suite::run`'s scan of the whole command line of utest.h. */
  lemma ParseArgsMeaning(args: seq<string>)
    ensures (forall j :: 0 <= j < |args| ==> !IsVerbosityFlag(args[j])) ==> ParseArgs(args) == DefaultVerbosity
    ensures ParseArgs(args) == DefaultVerbosity ||
      exists j :: 0 < j < |args| && IsVerbosityFlag(args[j - 1]) && Names(args[j], ParseArgs(args))
  {
    ScanMeaning(args, 0, DefaultVerbosity);
  }

  /** `suite::run(argc, argv)` of utest.h: scan the arguments, then
      `runall`. The verbosity only decides what is printed, so the counters,
      and the returned number of failures, are those of a run without
      arguments. */
  function Run(args: seq<string>, reg: Registry): (r: (Registry, Totals))
    requires Ready(reg)
    requires forall k :: 0 <= k < |reg.arena| ==> reg.arena[k].cases == 0 && reg.arena[k].errors == 0
    ensures r.1 == RunAll(reg, DefaultVerbosity).1
    ensures r.1.errors == FailureCount(reg.arena[0].body)
  {
    RunAll(reg, ParseArgs(args))
  }

  lemma {:induction false} ScanSplit(a: seq<string>, b: seq<string>, i: nat, v: Verbosity)
    requires i <= |a| && (|a| == 0 || !IsVerbosityFlag(a[|a| - 1]))
    ensures Scan(a + b, i, v) == Scan(a + b, |a|, Scan(a, i, v))
    decreases |a| - i
  {
    if i < |a| {
      assert (a + b)[i] == a[i];
      if IsVerbosityFlag(a[i]) && i + 1 < |a| {
        assert (a + b)[i + 1] == a[i + 1];
        ScanSplit(a, b, i + 2, ApplyWord(v, a[i + 1]));
      } else {
        ScanSplit(a, b, i + 1, v);
      }
    }
  }

  /** A verbosity flag with a value, given last, decides the verbosity when
      the value is one of this generation's three words, and is ignored
      otherwise; in particular "passed" leaves the verbosity unchanged. */
  lemma LastVerbosityWins(a: seq<string>, flag: string, w: string)
    requires (|a| == 0 || !IsVerbosityFlag(a[|a| - 1])) && IsVerbosityFlag(flag)
    ensures ParseArgs(a + [flag, w]) == ApplyWord(ParseArgs(a), w)
    ensures ParseArgs(a + [flag, "passed"]) == ParseArgs(a)
  {
    ScanSplit(a, [flag, w], 0, DefaultVerbosity);
    ScanSplit(a, [flag, "passed"], 0, DefaultVerbosity);
    assert (a + [flag, w])[|a|] == flag && (a + [flag, w])[|a| + 1] == w;
    assert (a + [flag, "passed"])[|a|] == flag && (a + [flag, "passed"])[|a| + 1] == "passed";
  }
}

=== FILE: output.dfy ===
/** The console output of the harness, reduced to abstract events: the text,
    colours and exact formatting of each line are not modelled, only which line
    is printed and the values it carries. */
module Output {

  /** How a fixture's closing line is worded: after other output ("tests passed" /
      "tests failed ... cases didn't pass"), or appended to the banner line
      ("-> passed" / "-> failed"). */
  datatype Closing = PassedAfterOutput | FailedAfterOutput | PassedInline | FailedInline

  datatype Event =
    | Banner(group: string, name: string)       // "Running 'group.name' test cases"
    | SectionHeader(path: string)               // "> Section main.a.b"
    | CaseHeader(index: int, success: bool)     // one line per reported case
    | CaseDetail(index: int)                    // expression text and evaluated operands
    | BlankLine
    | FixtureSummary(closing: Closing, passed: int, total: int)
    | RunSummary(tests: int, passedTests: int, cases: int, passedCases: int)

  /** The case header lines of `events`, in order, each as the case's index
      and the outcome the line announces. */
  function Headers(events: seq<Event>): seq<(int, bool)>
  {
    if |events| == 0 then []
    else (if events[0].CaseHeader? then [(events[0].index, events[0].success)] else []) + Headers(events[1..])
  }

  /** Indices of the cases whose expression and operands were printed in
      `events`, in order. */
  function Details(events: seq<Event>): seq<int>
  {
    if |events| == 0 then []
    else (if events[0].CaseDetail? then [events[0].index] else []) + Details(events[1..])
  }

  /** The paths of the section header lines of `events`, in order. */
  function SectionPaths(events: seq<Event>): seq<string>
  {
    if |events| == 0 then []
    else (if events[0].SectionHeader? then [events[0].path] else []) + SectionPaths(events[1..])
  }

  /** A line `add_result` may print: blank, a section header, a case header
      or a case's detail. */
  predicate CaseLine(e: Event)
  {
    e.BlankLine? || e.SectionHeader? || e.CaseHeader? || e.CaseDetail?
  }

  predicate CaseLines(events: seq<Event>)
  {
    forall k :: 0 <= k < |events| ==> CaseLine(events[k])
  }

  lemma CaseLinesAppend(a: seq<Event>, b: seq<Event>)
    requires CaseLines(a) && CaseLines(b)
    ensures CaseLines(a + b)
  {
    assert forall k :: 0 <= k < |a + b| ==> (a + b)[k] == if k < |a| then a[k] else b[k - |a|];
  }

  lemma {:induction false} HeadersAppend(a: seq<Event>, b: seq<Event>)
    ensures Headers(a + b) == Headers(a) + Headers(b)
    ensures Details(a + b) == Details(a) + Details(b)
    ensures SectionPaths(a + b) == SectionPaths(a) + SectionPaths(b)
    decreases |a|
  {
    if |a| == 0 {
      assert a + b == b;
    } else {
      assert (a + b)[1..] == a[1..] + b;
      HeadersAppend(a[1..], b);
    }
  }

  /** What a single event contributes. */
  lemma SingleEvent(e: Event)
    ensures Headers([e]) == if e.CaseHeader? then [(e.index, e.success)] else []
    ensures Details([e]) == if e.CaseDetail? then [e.index] else []
    ensures SectionPaths([e]) == if e.SectionHeader? then [e.path] else []
  {
    assert [e][1..] == [];
  }

  /** Events that report no case contribute no case line. */
  lemma {:induction false} NoCaseEvents(e: seq<Event>)
    requires forall k :: 0 <= k < |e| ==> !e[k].CaseHeader? && !e[k].CaseDetail?
    ensures Headers(e) == [] && Details(e) == []
    decreases |e|
  {
    if |e| > 0 {
      NoCaseEvents(e[1..]);
    }
  }
}

=== FILE: sections.dfy ===
/** A fixture's section stack (utest.h `sections` with `sectionchanged`; the same
    push/pop and stale-header logic in utest.cc, which renders the path with
    `join` and adds a rule line): a fixed array of 32 names whose slot 0 is
    "main", the index of the innermost open section, and a flag saying the
    printed section header is stale. */
module Sections {
  import opened Stringify
  import opened Output

  const Capacity: nat := 32
  const Root: string := "main"

  datatype SectionStack = SectionStack(names: seq<string>, current: int, changed: bool)

  /** The array has its fixed size, `current` indexes it, and the root is intact. */
  predicate Valid(s: SectionStack)
  {
    |s.names| == Capacity && 0 <= s.current < Capacity && s.names[0] == Root
  }

  /** A fresh fixture's stack: only the root open, header stale. Unused slots
      hold null pointers in the source; the empty string stands for them. */
  function Initial(): (s: SectionStack)
    ensures Valid(s) && s.current == 0 && s.changed
  {
    SectionStack([Root] + seq(Capacity - 1, _ => ""), 0, true)
  }

  /** `push_section(name)`. The array is not bounds-checked in the source, so
      the caller must leave room for the new slot. */
  function Push(s: SectionStack, name: string): (r: SectionStack)
    requires Valid(s) && s.current < Capacity - 1
    ensures Valid(r) && r.changed
    ensures r.current == s.current + 1 && r.names[r.current] == name
    ensures forall i :: 0 <= i < Capacity && i != r.current ==> r.names[i] == s.names[i]
  {
    SectionStack(s.names[s.current + 1 := name], s.current + 1, true)
  }

  /** `pop_section()`. Sections are scope guards, so a pop always follows a push
      and never uncovers the root. */
  function Pop(s: SectionStack): (r: SectionStack)
    requires Valid(s) && s.current > 0
    ensures Valid(r) && r.changed
    ensures r.current == s.current - 1 && r.names == s.names
  {
    s.(current := s.current - 1, changed := true)
  }

  /** The open sections, root first. */
  function Open(s: SectionStack): (r: seq<string>)
    requires Valid(s)
    ensures |r| == s.current + 1 && r[0] == Root
  {
    s.names[..s.current + 1]
  }

  /** The rendered path: the open section names joined with ".". */
  function Path(s: SectionStack): (p: string)
    requires Valid(s)
    ensures |p| >= |Root| && p[..|Root|] == Root
  {
    var open := Open(s);
    var p := Join(open, ".");
    PathStartsWithRoot(open);
    p
  }

  lemma PathStartsWithRoot(open: seq<string>)
    requires |open| > 0 && open[0] == Root
    ensures |Interleave(open, ".")| >= |Root|
    ensures Interleave(open, ".")[..|Root|] == Root
  {
    if |open| > 1 {
      assert Interleave(open, ".") == Root + ("." + Interleave(open[1..], "."));
    }
  }

  /** The source renders the path with the threshold join; since "main" alone
      already has 4 characters the threshold never bites here. */
  lemma PathAsWritten(s: SectionStack)
    requires Valid(s)
    ensures JoinAsWritten(Open(s), ".") == Path(s)
  {
    var open := Open(s);
    assert Raw(open, ".") == Root + "." + Raw(open[1..], ".");
  }

  lemma {:induction false} InterleaveSnoc(parts: seq<string>, sep: string, last: string)
    requires |parts| > 0
    ensures Interleave(parts + [last], sep) == Interleave(parts, sep) + sep + last
    decreases |parts|
  {
    if |parts| == 1 {
      assert (parts + [last])[1..] == [last];
    } else {
      assert (parts + [last])[1..] == parts[1..] + [last];
      InterleaveSnoc(parts[1..], sep, last);
    }
  }

  /** Entering a section appends its name to the rendered path. */
  lemma PathOfPush(s: SectionStack, name: string)
    requires Valid(s) && s.current < Capacity - 1
    ensures Path(Push(s, name)) == Path(s) + "." + name
  {
    var r := Push(s, name);
    assert Open(r) == Open(s) + [name];
    InterleaveSnoc(Open(s), ".", name);
  }

  /** Leaving the section just entered restores the open sections and the path,
      and leaves the header stale. */
  lemma PushThenPop(s: SectionStack, name: string)
    requires Valid(s) && s.current < Capacity - 1
    ensures Pop(Push(s, name)).current == s.current
    ensures Open(Pop(Push(s, name))) == Open(s)
    ensures Path(Pop(Push(s, name))) == Path(s)
    ensures Pop(Push(s, name)).changed
  {
  }

  /** `print_section()`: if the header is stale, print it and mark it fresh;
      otherwise print nothing. */
  function PrintSection(s: SectionStack): (r: (SectionStack, seq<Event>))
    requires Valid(s)
    ensures Valid(r.0) && !r.0.changed
    ensures r.0.names == s.names && r.0.current == s.current
    ensures |r.1| <= 1
    ensures |r.1| == 1 <==> s.changed
    ensures forall e :: e in r.1 ==> e == SectionHeader(Path(s))
  {
    if !s.changed then (s, []) else (s.(changed := false), [SectionHeader(Path(s))])
  }

  /** A second `print_section()` right after the first is a no-op. */
  lemma PrintSectionTwice(s: SectionStack)
    requires Valid(s)
    ensures PrintSection(PrintSection(s).0) == (PrintSection(s).0, [])
  {
  }

  /** Entering "a" then "b" renders "main.a.b"; leaving "b" and entering "c"
      renders "main.a.c". */
  lemma NestedPaths()
    ensures Path(Push(Push(Initial(), "a"), "b")) == "main.a.b"
    ensures Path(Push(Pop(Push(Push(Initial(), "a"), "b")), "c")) == "main.a.c"
    ensures Path(Pop(Pop(Push(Push(Initial(), "a"), "b")))) == "main"
  {
    var s0 := Initial();
    var s1 := Push(s0, "a");
    var s2 := Push(s1, "b");
    RootPath();
    PathOfPush(s0, "a");
    PathOfPush(s1, "b");
    PushThenPop(s1, "b");
    PathOfPush(s1, "c");
    PushThenPop(s0, "a");
    assert Path(s1) == "main.a" by { Concat("main", ".", "a", "main.a"); }
    Concat("main.a", ".", "b", "main.a.b");
    Concat("main.a", ".", "c", "main.a.c");
  }

  lemma RootPath()
    ensures Path(Initial()) == "main"
  {
    assert Open(Initial()) == [Root];
  }

  lemma Concat(x: string, y: string, z: string, w: string)
    requires |w| == |x| + |y| + |z|
    requires forall i :: 0 <= i < |x| ==> w[i] == x[i]
    requires forall i :: 0 <= i < |y| ==> w[|x| + i] == y[i]
    requires forall i :: 0 <= i < |z| ==> w[|x| + |y| + i] == z[i]
    ensures x + y + z == w
  {
  }
}

=== FILE: stringify.dfy ===
/** Rendering of operands and of section paths as text (utest.h, "STRING
    HELPERS"). */
module Stringify {
  import opened Comparator

  function DigitChar(d: nat): char
    requires d < 10
  {
    "0123456789"[d]
  }

  function Digits(n: nat): (s: string)
    ensures |s| > 0
    ensures forall i :: 0 <= i < |s| ==> '0' <= s[i] <= '9'
  {
    if n < 10 then [DigitChar(n)] else Digits(n / 10) + [DigitChar(n % 10)]
  }

  /** `std::to_string` on an int: optional minus sign, then decimal digits. */
  function IntToString(n: int): (s: string)
    ensures |s| > 0
    ensures s[0] == '-' <==> n < 0
  {
    if n < 0 then "-" + Digits(-n) else Digits(n)
  }

  /** What the joining loop accumulates: every part followed by the separator. */
  function Raw(parts: seq<string>, sep: string): (r: string)
    ensures |parts| == 0 ==> r == ""
    ensures |parts| > 0 ==> |sep| <= |r| && r[|r| - |sep|..] == sep
  {
    if |parts| == 0 then "" else parts[0] + sep + Raw(parts[1..], sep)
  }

  /** The intended join: parts separated by `sep`, no separator at either end. */
  function Interleave(parts: seq<string>, sep: string): string
  {
    if |parts| == 0 then ""
    else if |parts| == 1 then parts[0]
    else parts[0] + sep + Interleave(parts[1..], sep)
  }

  lemma {:induction false} RawIsInterleavePlusSep(parts: seq<string>, sep: string)
    requires |parts| > 0
    ensures Raw(parts, sep) == Interleave(parts, sep) + sep
    decreases |parts|
  {
    if |parts| > 1 {
      RawIsInterleavePlusSep(parts[1..], sep);
    } else {
      assert Raw(parts[1..], sep) == "";
    }
  }

  /** Range `to_string(range, sep)` as written: the trailing separator is cut off
      only when the accumulated text is longer than 3 characters, whatever the
      separator's length. */
  function JoinAsWritten(parts: seq<string>, sep: string): (r: string)
    ensures |parts| == 0 ==> r == ""
    ensures |Raw(parts, sep)| > 3 ==> r == Interleave(parts, sep)
    ensures |Raw(parts, sep)| <= 3 ==> r == Raw(parts, sep)
  {
    var acc := Raw(parts, sep);
    if |acc| > 3 then
      RawIsInterleavePlusSep(parts, sep);
      acc[..|acc| - |sep|]
    else acc
  }

  /** The join the stringifier evidently intends: drop the trailing separator
      whenever there is one. */
  function Join(parts: seq<string>, sep: string): (r: string)
    ensures r == Interleave(parts, sep)
  {
    var acc := Raw(parts, sep);
    if |parts| > 0 then
      RawIsInterleavePlusSep(parts, sep);
      acc[..|acc| - |sep|]
    else acc
  }

  /** For one element the as-written join matches the intended one exactly when
      the element and separator together exceed 3 characters (or the separator
      is empty). */
  lemma SingleElementThreshold(p: string, sep: string)
    ensures JoinAsWritten([p], sep) == Join([p], sep) <==> |p| + |sep| > 3 || |sep| == 0
  {
    assert Raw([p], sep) == p + sep by {
      assert Raw([p][1..], sep) == "";
    }
    if |p| + |sep| <= 3 && |sep| > 0 {
      assert |JoinAsWritten([p], sep)| != |p|;
    }
  }

  /** With the default separator, two or more non-empty elements always clear
      the threshold, so only one-element ranges are affected. */
  lemma {:induction false} ManyElementsJoinCorrectly(parts: seq<string>)
    requires |parts| >= 2
    requires forall i :: 0 <= i < |parts| ==> |parts[i]| > 0
    ensures JoinAsWritten(parts, ", ") == Join(parts, ", ")
  {
    assert Raw(parts, ", ") == parts[0] + ", " + Raw(parts[1..], ", ");
    assert |Raw(parts[1..], ", ")| >= 2;
  }

  /** `vector{7}` renders as "7, " rather than "7". */
  lemma SingleDigitKeepsSeparator()
    ensures JoinAsWritten(["7"], ", ") == "7, "
    ensures Join(["7"], ", ") == "7"
  {
    SingleElementThreshold("7", ", ");
    assert Raw(["7"], ", ") == "7, " by {
      assert Raw(["7"][1..], ", ") == "";
    }
  }

  /** Every operand rendered: scalars through `std::to_string`, ranges by
      joining their rendered elements with ", " (the corrected join). */
  function ToString(v: Value): (s: string)
    ensures v.Scalar? ==> |s| > 0
    ensures v.List? ==> s == Interleave(ToStrings(v.items), ", ")
  {
    match v
    case Scalar(n) => IntToString(n)
    case List(xs) => Join(ToStrings(xs), ", ")
  }

  function ToStrings(xs: seq<Value>): (r: seq<string>)
    ensures |r| == |xs|
    ensures forall i :: 0 <= i < |xs| ==> r[i] == ToString(xs[i])
  {
    if |xs| == 0 then [] else [ToString(xs[0])] + ToStrings(xs[1..])
  }

  /** `to_string` as written: ranges, nested ones included, are joined with
      the threshold join. Scalars and the empty range render as with the
      corrected join. */
  function ToStringAsWritten(v: Value): (s: string)
    ensures v.Scalar? ==> s == ToString(v)
    ensures v.List? && |v.items| == 0 ==> s == ""
  {
    match v
    case Scalar(n) => IntToString(n)
    case List(xs) => JoinAsWritten(ToStringsAsWritten(xs), ", ")
  }

  function ToStringsAsWritten(xs: seq<Value>): (r: seq<string>)
    ensures |r| == |xs|
    ensures forall i :: 0 <= i < |xs| ==> r[i] == ToStringAsWritten(xs[i])
  {
    if |xs| == 0 then [] else [ToStringAsWritten(xs[0])] + ToStringsAsWritten(xs[1..])
  }

  /** A range of two or more integers renders the same with the join as
      written as with the corrected one. */
  lemma IntRangeRendering(s: seq<int>)
    requires |s| >= 2
    ensures JoinAsWritten(ToStrings(Ints(s).items), ", ") == ToString(Ints(s))
    ensures ToStringAsWritten(Ints(s)) == ToString(Ints(s))
  {
    ManyElementsJoinCorrectly(ToStrings(Ints(s).items));
    assert ToStringsAsWritten(Ints(s).items) == ToStrings(Ints(s).items);
  }

  /** The one-element range `{7}`: the renderer as written keeps the
      separator, the corrected one does not. */
  lemma SingletonRangeRendering()
    ensures ToStringAsWritten(Ints([7])) == "7, "
    ensures ToString(Ints([7])) == "7"
  {
    SingleDigitKeepsSeparator();
    var v := Ints([7]);
    assert IntToString(7) == "7" by {
      assert Digits(7) == [DigitChar(7)];
    }
    assert ToStrings(v.items) == ["7"];
    assert ToStringsAsWritten(v.items) == ["7"];
  }
}

=== FILE: suite.dfy ===
/** The suite of the utest.cc generation of the harness: the vector of
    registered fixtures, `runall`, and the command-line scan of `run`. */
module Suite {
  import opened Output
  import opened Sections
  import opened TestBody
  import opened Fixtures

  /** A fixture's constructor appends it to `suite::fixtures`. */
  function Register(fixtures: seq<Declaration>, d: Declaration): (r: seq<Declaration>)
    ensures |r| == |fixtures| + 1 && r[|fixtures|] == d
    ensures forall k :: 0 <= k < |fixtures| ==> r[k] == fixtures[k]
  {
    fixtures + [d]
  }

  /** Static initialisation: every declared fixture registers itself, in
      declaration order. Registration neither drops nor reorders anything:
      the registry lists the fixtures exactly in declaration order. */
  function RegisterAll(fixtures: seq<Declaration>, ds: seq<Declaration>): (r: seq<Declaration>)
    ensures r == fixtures + ds
    decreases |ds|
  {
    if |ds| == 0 then
      assert fixtures + ds == fixtures;
      fixtures
    else
      assert fixtures + [ds[0]] + ds[1..] == fixtures + ds;
      RegisterAll(Register(fixtures, ds[0]), ds[1..])
  }

  /** Reference totals over the declared bodies, independent of running them. */
  function SumCases(ds: seq<Declaration>): nat
  {
    if |ds| == 0 then 0 else SumCases(ds[..|ds| - 1]) + CaseCount(ds[|ds| - 1].body)
  }

  function SumFailures(ds: seq<Declaration>): nat
  {
    if |ds| == 0 then 0 else SumFailures(ds[..|ds| - 1]) + FailureCount(ds[|ds| - 1].body)
  }

  /** Number of declarations whose body has no failing assertion. */
  function CountClean(ds: seq<Declaration>): nat
  {
    if |ds| == 0 then 0
    else CountClean(ds[..|ds| - 1]) + (if FailureCount(ds[|ds| - 1].body) == 0 then 1 else 0)
  }

  predicate AllFit(ds: seq<Declaration>)
  {
    forall k :: 0 <= k < |ds| ==> Fits(ds[k])
  }

  datatype Totals = Totals(tests: int, passed: int, cases: int, errors: int)

  /** What `runall` leaves behind: the counters it accumulated, the final state
      of every fixture, and everything printed. */
  datatype Progress = Progress(totals: Totals, finals: seq<Fixture>, events: seq<Event>)

  /** The final state of a fixture that ran declaration `d`: its own name,
      and one case per assertion of the body, failed where the body fails. */
  predicate Reports(d: Declaration, f: Fixture)
  {
    f.group == d.group && f.name == d.name &&
    f.cases == CaseCount(d.body) && f.errors == FailureCount(d.body)
  }

  /** One turn of the loop of `runall`: make the fixture current, then
      `setup()`, `run()` and `teardown()`. It states nothing beyond
      `RunFixture` and `QuietFixturePrintsOnlyClosing`; it is a method of its
      own so that the loop of `RunFixtures` sees only this contract, not
      `RunFixture`'s body. */
  method RunOne(d: Declaration, v: Verbosity) returns (f: Fixture, events: seq<Event>)
    requires Fits(d)
    ensures f == RunFixture(d, v).0 && events == RunFixture(d, v).1
    ensures Reports(d, f) && 0 <= f.errors <= f.cases
    ensures |events| > 0 && events[|events| - 1] == Teardown(f)
    ensures v == Quiet ==> events == [Teardown(f)]
  {
    var r := RunFixture(d, v);
    if v == Quiet {
      QuietFixturePrintsOnlyClosing(d);
    }
    f, events := r.0, r.1;
  }

  /** The counters `runall` accumulated and the final fixture states account
      for every declaration: one test each, a passed test for each clean body,
      and the sums of the bodies' cases and failures. */
  predicate Accounts(ds: seq<Declaration>, t: Totals, finals: seq<Fixture>)
  {
    t == Totals(|ds|, CountClean(ds), SumCases(ds), SumFailures(ds)) &&
    |finals| == |ds| && forall k :: 0 <= k < |ds| ==> Reports(ds[k], finals[k])
  }

  /** Reference run of `ds` in order: the final state of each fixture as
      `RunFixture` leaves it, and each fixture's lines one after another. */
  function Runs(ds: seq<Declaration>, v: Verbosity): (seq<Fixture>, seq<Event>)
    requires AllFit(ds)
  {
    if |ds| == 0 then ([], [])
    else
      var before := Runs(ds[..|ds| - 1], v);
      var last := RunFixture(ds[|ds| - 1], v);
      (before.0 + [last.0], before.1 + last.1)
  }

  /** Every declaration of `ds` was run, in order, as `RunFixture` runs it:
      the counters and final states account for it, and the output is each
      fixture's output in turn. */
  predicate RanInOrder(ds: seq<Declaration>, v: Verbosity, t: Totals, finals: seq<Fixture>, events: seq<Event>)
    requires AllFit(ds)
  {
    Accounts(ds, t, finals) && (finals, events) == Runs(ds, v)
  }

  /** `runall` finished: every declaration ran in order, and the aggregate
      line of the totals closes the output. */
  predicate Completed(ds: seq<Declaration>, v: Verbosity, p: Progress)
    requires AllFit(ds)
  {
    |p.events| > 0 &&
    RanInOrder(ds, v, p.totals, p.finals, p.events[..|p.events| - 1]) &&
    p.events[|p.events| - 1] ==
      RunSummary(p.totals.tests, p.totals.passed, p.totals.cases, p.totals.cases - p.totals.errors)
  }

  /** The loop of `runall`: every registered fixture in order, accumulating
      its counters, its final state and what it printed. */
  method RunFixtures(ds: seq<Declaration>, v: Verbosity) returns (t: Totals, finals: seq<Fixture>, events: seq<Event>)
    requires AllFit(ds)
    ensures Accounts(ds, t, finals)
    ensures RanInOrder(ds, v, t, finals, events)
    ensures v == Quiet ==> |events| == |ds| && forall k :: 0 <= k < |ds| ==> events[k].FixtureSummary?
  {
    t := Totals(0, 0, 0, 0);
    finals := [];
    events := [];
    assert ds[..0] == [];
    for i := 0 to |ds|
      invariant AllFit(ds[..i])
      invariant RanInOrder(ds[..i], v, t, finals, events)
    {
      var f, out := RunOne(ds[i], v);
      RanStep(ds, i, v, t, finals, events, f, out);
      t := Totals(t.tests + 1, t.passed + (if f.errors == 0 then 1 else 0), t.cases + f.cases, t.errors + f.errors);
      finals := finals + [f];
      events := events + out;
    }
    RanAll(ds, v, t, finals, events);
  }

  /** The loop of `runall` ran to the end of `ds`. */
  lemma RanAll(ds: seq<Declaration>, v: Verbosity, t: Totals, finals: seq<Fixture>, events: seq<Event>)
    requires AllFit(ds) && AllFit(ds[..|ds|]) && RanInOrder(ds[..|ds|], v, t, finals, events)
    ensures RanInOrder(ds, v, t, finals, events)
    ensures v == Quiet ==> |events| == |ds| && forall k :: 0 <= k < |ds| ==> events[k].FixtureSummary?
  {
    assert ds[..|ds|] == ds;
    if v == Quiet {
      QuietRuns(ds);
    }
  }

  /** `suite::runall()`: run the loop, print the aggregate line, and return
      the total number of failed cases. */
  method RunAll(ds: seq<Declaration>, v: Verbosity) returns (result: int, p: Progress)
    requires AllFit(ds)
    ensures Accounts(ds, p.totals, p.finals)
    ensures Completed(ds, v, p)
    ensures result == p.totals.errors
    ensures result == 0 <==> forall k :: 0 <= k < |ds| ==> FailureCount(ds[k].body) == 0
    ensures 0 <= p.totals.passed <= p.totals.tests && 0 <= p.totals.errors <= p.totals.cases
    ensures |p.events| > 0 && p.events[|p.events| - 1] ==
      RunSummary(p.totals.tests, p.totals.passed, p.totals.cases, p.totals.cases - p.totals.errors)
    ensures v == Quiet ==>
      |p.events| == |ds| + 1 && forall k :: 0 <= k < |ds| ==> p.events[k].FixtureSummary?
  {
    var t, finals, events := RunFixtures(ds, v);
    AllCleanIffNoFailures(ds);
    TotalsBounded(ds);
    result := t.errors;
    p := Progress(t, finals, events + [RunSummary(t.tests, t.passed, t.cases, t.cases - t.errors)]);
  }

  /** One more turn of the loop of `runall` keeps it running in order. */
  lemma RanStep(ds: seq<Declaration>, i: nat, v: Verbosity, t: Totals, finals: seq<Fixture>, events: seq<Event>,
                f: Fixture, out: seq<Event>)
    requires i < |ds| && AllFit(ds)
    requires AllFit(ds[..i]) && RanInOrder(ds[..i], v, t, finals, events)
    requires f == RunFixture(ds[i], v).0 && out == RunFixture(ds[i], v).1
    ensures AllFit(ds[..i + 1])
    ensures RanInOrder(ds[..i + 1], v,
      Totals(t.tests + 1, t.passed + (if f.errors == 0 then 1 else 0), t.cases + f.cases, t.errors + f.errors),
      finals + [f], events + out)
  {
    AccountsStep(ds, i, t, finals, f);
    RunsStep(ds, i, v);
  }

  /** Run quietly, each fixture prints exactly its closing line. */
  lemma {:induction false} QuietRuns(ds: seq<Declaration>)
    requires AllFit(ds)
    ensures |Runs(ds, Quiet).0| == |ds|
    ensures Closings(Runs(ds, Quiet).0, Runs(ds, Quiet).1)
    decreases |ds|
  {
    if |ds| > 0 {
      var n := |ds| - 1;
      QuietRuns(ds[..n]);
      QuietFixturePrintsOnlyClosing(ds[n]);
      var before := Runs(ds[..n], Quiet);
      var last := RunFixture(ds[n], Quiet);
      ClosingsAppend(before.0, before.1, last.0);
      assert Runs(ds, Quiet) == (before.0 + [last.0], before.1 + last.1);
    }
  }

  /** Fixture states `fs` whose closing lines are exactly `es`. */
  predicate Closings(fs: seq<Fixture>, es: seq<Event>)
  {
    |es| == |fs| && forall k :: 0 <= k < |fs| ==> es[k] == Teardown(fs[k])
  }

  lemma ClosingsAppend(fs: seq<Fixture>, es: seq<Event>, f: Fixture)
    requires Closings(fs, es)
    ensures Closings(fs + [f], es + [Teardown(f)])
  {
  }

  /** The counters and final states of one more declaration. */
  lemma AccountsStep(ds: seq<Declaration>, i: nat, t: Totals, finals: seq<Fixture>, f: Fixture)
    requires i < |ds| && Accounts(ds[..i], t, finals) && Reports(ds[i], f)
    ensures Accounts(ds[..i + 1],
      Totals(t.tests + 1, t.passed + (if f.errors == 0 then 1 else 0), t.cases + f.cases, t.errors + f.errors),
      finals + [f])
  {
    PrefixStep(ds, i);
    assert ds[..i + 1][..i] == ds[..i] && ds[..i + 1][i] == ds[i];
  }

  /** The reference run of one more declaration. */
  lemma RunsStep(ds: seq<Declaration>, i: nat, v: Verbosity)
    requires i < |ds| && AllFit(ds)
    ensures AllFit(ds[..i]) && AllFit(ds[..i + 1])
    ensures Runs(ds[..i + 1], v) ==
      (Runs(ds[..i], v).0 + [RunFixture(ds[i], v).0], Runs(ds[..i], v).1 + RunFixture(ds[i], v).1)
  {
    assert ds[..i + 1][..i] == ds[..i] && ds[..i + 1][i] == ds[i];
  }

  /** The reference totals of one more declaration. */
  lemma PrefixStep(ds: seq<Declaration>, i: nat)
    requires i < |ds|
    ensures SumCases(ds[..i + 1]) == SumCases(ds[..i]) + CaseCount(ds[i].body)
    ensures SumFailures(ds[..i + 1]) == SumFailures(ds[..i]) + FailureCount(ds[i].body)
    ensures CountClean(ds[..i + 1]) == CountClean(ds[..i]) + (if FailureCount(ds[i].body) == 0 then 1 else 0)
  {
    assert ds[..i + 1][..i] == ds[..i] && ds[..i + 1][i] == ds[i];
  }

  /** Every fixture passed exactly when no case failed anywhere. */
  lemma {:induction false} AllCleanIffNoFailures(ds: seq<Declaration>)
    ensures CountClean(ds) <= |ds|
    ensures CountClean(ds) == |ds| <==> SumFailures(ds) == 0
    ensures SumFailures(ds) == 0 <==> forall k :: 0 <= k < |ds| ==> FailureCount(ds[k].body) == 0
    decreases |ds|
  {
    if |ds| > 0 {
      var init := ds[..|ds| - 1];
      AllCleanIffNoFailures(init);
      assert forall k :: 0 <= k < |init| ==> init[k] == ds[k];
    }
  }

  /** The totals never claim more failures than cases. */
  lemma {:induction false} TotalsBounded(ds: seq<Declaration>)
    ensures SumFailures(ds) <= SumCases(ds)
    decreases |ds|
  {
    if |ds| > 0 {
      FailuresAtMostCases(ds[|ds| - 1].body);
      TotalsBounded(ds[..|ds| - 1]);
    }
  }

  /** The first two assertions of example.cc's "integers" section, flattened:
      `test_eq(value, 29)` fails and `test_ne(value, 29)` passes for `value == 23`. */
  function ScenarioBody(): seq<Stmt> { [Check(false), Check(true)] }

  lemma ScenarioCounts()
    ensures Outcomes(ScenarioBody()) == [false, true]
    ensures CaseCount(ScenarioBody()) == 2 && FailureCount(ScenarioBody()) == 1
    ensures Depth(ScenarioBody()) == 0
  {
    var body := ScenarioBody();
    var tail: seq<Stmt> := [Check(true)];
    assert body[1..] == tail && tail[1..] == [];
    assert Outcomes(tail) == [true];
    var t: seq<bool> := [true];
    assert t[1..] == [];
    assert CountFalse(t) == 0;
    assert [false, true][1..] == t;
  }

  /** A fixture holding just those two assertions, run quietly: it prints only
      its inline closing line `-> failed [1/2]`, and a suite of just this
      fixture counts one test, none passed, two cases, one failure, so
      `runall` returns 1. */
  lemma QuietScenario(d: Declaration)
    requires d.body == ScenarioBody()
    ensures AllFit([d])
    ensures RunFixture(d, Quiet).1 == [FixtureSummary(FailedInline, 1, 2)]
    ensures SumCases([d]) == 2 && SumFailures([d]) == 1 && CountClean([d]) == 0
  {
    ScenarioCounts();
    assert AllFit([d]);
    QuietFixturePrintsOnlyClosing(d);
    var g := RunFixture(d, Quiet).0;
    assert g.cases == 2 && g.errors == 1 && !g.printedSomething;
    assert Teardown(g) == FixtureSummary(FailedInline, 1, 2);
    assert [d][..0] == [];
  }

  // ---------------------------------------------------------------- command line

  datatype Config = Config(verbosity: Verbosity, sourceRoot: string)

  /** `suite::config` before `run` scans the arguments. */
  const DefaultConfig := Config(Failures, "")

  predicate IsVerbosityFlag(a: string) { a == "--verbosity" || a == "-v" }
  predicate IsRootFlag(a: string) { a == "--source_root" || a == "-s" }
  predicate IsFlag(a: string) { IsVerbosityFlag(a) || IsRootFlag(a) }
  predicate IsWord(a: string) { a in {"quiet", "failures", "passed", "everything"} }

  /** The word `w` selects the level `v`. */
  predicate Names(w: string, v: Verbosity) { IsWord(w) && ApplyWord(v, w) == v }

  /** The four `strcmp` tests on a verbosity value: a recognised word selects
      its level, anything else leaves the level as it was. */
  function ApplyWord(current: Verbosity, a: string): (v: Verbosity)
    ensures !IsWord(a) ==> v == current
    ensures a == "quiet" <==> IsWord(a) && v == Quiet
    ensures a == "failures" <==> IsWord(a) && v == Failures
    ensures a == "passed" <==> IsWord(a) && v == Passed
    ensures a == "everything" <==> IsWord(a) && v == Everything
  {
    if a == "quiet" then Quiet
    else if a == "failures" then Failures
    else if a == "passed" then Passed
    else if a == "everything" then Everything
    else current
  }

  /** One pass of the loop body at index `i`: the verbosity test may consume
      the next argument, and the source-root test then looks at the (possibly
      advanced) index and may consume one more. Returns the index the loop's
      `i++` starts from. */
  function Step(args: seq<string>, i: nat, cfg: Config): (r: (nat, Config))
    requires i < |args|
    ensures i <= r.0 < |args|
  {
    var (j, c1) :=
      if IsVerbosityFlag(args[i]) && i + 1 < |args| then
        (i + 1, cfg.(verbosity := ApplyWord(cfg.verbosity, args[i + 1])))
      else (i, cfg);
    if IsRootFlag(args[j]) && j + 1 < |args| then (j + 1, c1.(sourceRoot := args[j + 1]))
    else (j, c1)
  }

  /** The `for` loop of `run`, from index `i`. */
  function Scan(args: seq<string>, i: nat, cfg: Config): Config
    decreases |args| - i
  {
    if i >= |args| then cfg
    else
      var r := Step(args, i, cfg);
      Scan(args, r.0 + 1, r.1)
  }

  /** `run`'s argument scan, from index 0: the program name is scanned too. */
  function ParseArgs(args: seq<string>, cfg: Config): Config
  {
    Scan(args, 0, cfg)
  }

  /** `suite::run(argc, argv)`. The source root only shortens displayed file
      names, which are not modelled, so only the verbosity reaches `runall`. */
  method Run(args: seq<string>, cfg: Config, ds: seq<Declaration>) returns (result: int, p: Progress)
    requires AllFit(ds)
    ensures result == SumFailures(ds)
    ensures Completed(ds, ParseArgs(args, cfg).verbosity, p)
    ensures ParseArgs(args, cfg).verbosity == Quiet ==> |p.events| == |p.finals| + 1
  {
    result, p := RunAll(ds, ParseArgs(args, cfg).verbosity);
  }

  /** What one pass can do: a non-flag is skipped; a changed verbosity was
      named by the word after the verbosity flag at `i`, and a changed source
      root is the argument after the source-root flag the pass consumed. */
  lemma StepMeaning(args: seq<string>, i: nat, cfg: Config)
    requires i < |args|
    ensures !IsFlag(args[i]) ==> Step(args, i, cfg) == (i, cfg)
    ensures Step(args, i, cfg).1.verbosity == cfg.verbosity ||
      (i + 1 < |args| && IsVerbosityFlag(args[i]) && Names(args[i + 1], Step(args, i, cfg).1.verbosity))
    ensures Step(args, i, cfg).1.sourceRoot == cfg.sourceRoot ||
      (i < Step(args, i, cfg).0 && IsRootFlag(args[Step(args, i, cfg).0 - 1]) &&
       Step(args, i, cfg).1.sourceRoot == args[Step(args, i, cfg).0])
  {
  }

  /** What the scan from index `i` can do: without flags nothing changes; a
      changed verbosity was named by a word right after a verbosity flag, and
      a changed source root is the argument right after a source-root flag. */
  lemma {:induction false} ScanMeaning(args: seq<string>, i: nat, cfg: Config)
    ensures (forall j :: i <= j < |args| ==> !IsFlag(args[j])) ==> Scan(args, i, cfg) == cfg
    ensures Scan(args, i, cfg).verbosity == cfg.verbosity ||
      exists j :: i < j < |args| && IsVerbosityFlag(args[j - 1]) && Names(args[j], Scan(args, i, cfg).verbosity)
    ensures Scan(args, i, cfg).sourceRoot == cfg.sourceRoot ||
      exists j :: i < j < |args| && IsRootFlag(args[j - 1]) && Scan(args, i, cfg).sourceRoot == args[j]
    decreases |args| - i
  {
    if i < |args| {
      var r := Step(args, i, cfg);
      StepMeaning(args, i, cfg);
      ScanMeaning(args, r.0 + 1, r.1);
      var c := Scan(args, i, cfg);
      assert c == Scan(args, r.0 + 1, r.1);
      if c.verbosity != cfg.verbosity && c.verbosity == r.1.verbosity {
        assert IsVerbosityFlag(args[i + 1 - 1]) && Names(args[i + 1], c.verbosity);
      }
      if c.sourceRoot != cfg.sourceRoot && c.sourceRoot == r.1.sourceRoot {
        assert IsRootFlag(args[r.0 - 1]) && c.sourceRoot == args[r.0];
      }
    }
  }

  /** `run`'s scan of the whole command line, program name included. */
  lemma ParseArgsMeaning(args: seq<string>, cfg: Config)
    ensures (forall j :: 0 <= j < |args| ==> !IsFlag(args[j])) ==> ParseArgs(args, cfg) == cfg
    ensures ParseArgs(args, cfg).verbosity == cfg.verbosity ||
      exists j :: 0 < j < |args| && IsVerbosityFlag(args[j - 1]) && Names(args[j], ParseArgs(args, cfg).verbosity)
    ensures ParseArgs(args, cfg).sourceRoot == cfg.sourceRoot ||
      exists j :: 0 < j < |args| && IsRootFlag(args[j - 1]) && ParseArgs(args, cfg).sourceRoot == args[j]
  {
    ScanMeaning(args, 0, cfg);
  }

  /** A list of arguments whose last element is not a flag waiting for its
      value. */
  predicate Settled(a: seq<string>) { |a| == 0 || !IsFlag(a[|a| - 1]) }

  lemma StepIgnoresSuffix(a: seq<string>, b: seq<string>, i: nat, cfg: Config)
    requires i < |a| && Settled(a)
    ensures Step(a + b, i, cfg) == Step(a, i, cfg)
  {
    assert forall k :: 0 <= k < |a| ==> (a + b)[k] == a[k];
  }

  /** Scanning a settled prefix and then the rest is scanning the whole. */
  lemma {:induction false} ScanSplit(a: seq<string>, b: seq<string>, i: nat, cfg: Config)
    requires i <= |a| && Settled(a)
    ensures Scan(a + b, i, cfg) == Scan(a + b, |a|, Scan(a, i, cfg))
    decreases |a| - i
  {
    if i < |a| {
      StepIgnoresSuffix(a, b, i, cfg);
      var r := Step(a, i, cfg);
      assert Scan(a + b, i, cfg) == Scan(a + b, r.0 + 1, r.1);
      assert Scan(a, i, cfg) == Scan(a, r.0 + 1, r.1);
      ScanSplit(a, b, r.0 + 1, r.1);
    }
  }

  /** A verbosity flag with a value, given last, decides the verbosity: a
      recognised word wins, any other word is ignored; the source root is
      untouched. */
  lemma LastVerbosityWins(a: seq<string>, flag: string, w: string, cfg: Config)
    requires Settled(a) && IsVerbosityFlag(flag)
    ensures ParseArgs(a + [flag, w], cfg) ==
      ParseArgs(a, cfg).(verbosity := ApplyWord(ParseArgs(a, cfg).verbosity, w))
  {
    ScanSplit(a, [flag, w], 0, cfg);
    var args := a + [flag, w];
    assert args[|a|] == flag && args[|a| + 1] == w;
  }

  /** A source-root flag with a value, given last, sets the source root. */
  lemma LastRootWins(a: seq<string>, flag: string, p: string, cfg: Config)
    requires Settled(a) && IsRootFlag(flag)
    ensures ParseArgs(a + [flag, p], cfg) == ParseArgs(a, cfg).(sourceRoot := p)
  {
    ScanSplit(a, [flag, p], 0, cfg);
    var args := a + [flag, p];
    assert args[|a|] == flag && args[|a| + 1] == p;
  }

  /** A flag with nothing after it is ignored. */
  lemma TrailingFlagIgnored(a: seq<string>, flag: string, cfg: Config)
    requires Settled(a) && IsFlag(flag)
    ensures ParseArgs(a + [flag], cfg) == ParseArgs(a, cfg)
  {
    ScanSplit(a, [flag], 0, cfg);
    var args := a + [flag];
    assert args[|a|] == flag;
  }

  /** `-v -s X`: "-s" is consumed as the (unrecognised) verbosity value, and the
      source-root test in the same pass then sees it and consumes "X". Because
      the scan starts at index 0, a flag in the program-name slot counts too. */
  lemma VerbosityThenRoot(cfg: Config)
    ensures ParseArgs(["prog", "-v", "-s", "X"], cfg) == cfg.(sourceRoot := "X")
    ensures ParseArgs(["-s", "X"], cfg) == cfg.(sourceRoot := "X")
    ensures ParseArgs(["prog", "-v", "passed", "-v", "loud"], cfg) == cfg.(verbosity := Passed)
  {
    var a := ["prog", "-v", "-s", "X"];
    assert !IsFlag(a[0]) && IsVerbosityFlag(a[1]) && !IsWord(a[2]) && IsRootFlag(a[2]);
    assert Step(a, 0, cfg) == (0, cfg);
    assert Step(a, 1, cfg) == (3, cfg.(sourceRoot := "X"));
    var b := ["-s", "X"];
    assert IsRootFlag(b[0]) && !IsVerbosityFlag(b[0]);
    assert Step(b, 0, cfg) == (1, cfg.(sourceRoot := "X"));
    var c := ["prog", "-v", "passed", "-v", "loud"];
    assert !IsFlag(c[0]) && IsVerbosityFlag(c[1]) && !IsFlag(c[2]) && IsVerbosityFlag(c[3]);
    assert !IsWord(c[4]) && !IsFlag(c[4]);
    assert Step(c, 0, cfg) == (0, cfg);
    assert Step(c, 1, cfg) == (2, cfg.(verbosity := Passed));
    assert Step(c, 3, cfg.(verbosity := Passed)) == (4, cfg.(verbosity := Passed));
  }
}
